=== FILE: README.md ===
# jsonToparquet, modelled in Dafny

`jsonToparquet.py` is an AWS Lambda handler. An S3 put event names a JSON
object, which the handler reads into a pandas data frame. Then it:

1. rewrites every column header into a canonical name: strip, lower-case,
   then replace each run of whitespace or `-` by one `_`;
2. converts four kinds of column, each only if present:
   - `order_date` and `ship_date` become days under the strict format
     `%Y-%m-%d`, or null;
   - `returns` becomes text;
   - `ind1` and `ind2` become nullable 64-bit integers;
3. writes the frame as Parquet under the key
   `outputfolder/{base}_{YYYYMMDD_HHMMSS}.parquet`, where `base` is the input
   object's file name with `.json` removed.

This project models those three steps as pure functions and proves what
they promise. Where pandas versions differ, it follows pandas 2, whose text
columns and labels are Python strings. The modules follow the steps:

- `ColumnNames`: header rewriting. It covers Python's `str.strip` (with
  Python's full whitespace set), ASCII lower-casing, and the regular
  expression `[\s\-]+`. The expression is given both as a recursive
  definition and as a left-to-right scanning method proved equal to it.
- `Calendar` and `Numerals`:
  - `Calendar` holds Gregorian days with the strict `YYYY-MM-DD` spelling.
  - `Numerals` holds the decimal numerals `pd.to_numeric` reads, with exact
    rational values.
- `Cells`: the tagged cell value of a data frame, and the three per-cell
  conversions.
- `Tables`:
  - a table of named, equal-length columns;
  - the header rewrite over all columns;
  - the step list `order_date`, `ship_date`, `returns`, `ind1`, `ind2`, each
    step applied only when its column exists.
- `OutputKeys`:
  - `split('/')[-1]`;
  - `str.replace('.json', '')`;
  - the `strftime` timestamp, with the clock reading as an input;
  - the output key and its parser.
- `Handler`: the steps composed, and a reference definition (`Expected`) of
  what happens to each cell of each column, proved equal to the step table.

The cast to `Int64` raises on a number that is not whole or does not fit in
64 bits, and that ends the invocation before anything is written. The model
returns it as `Err(UnsafeIntegerCast(column))`.

Two headers that rewrite to the same name also end the invocation. The
program raises when it converts such a column: `pd.to_numeric` (line 40)
refuses a two-column frame and `pd.to_datetime` (line 31) cannot assemble a
date from it. Any other duplicated label is refused by pyarrow when the
frame is written (line 44), before the upload at line 56. The model returns
`Err(DuplicateColumns)` for all of these.

The `.json` removal follows the code: `str.replace` removes every
occurrence, not only a trailing one.

So the base name is not always free of `.json`:
- `a.jsonb.json` gives `ab`;
- `a.j.jsonson` gives `a.json`, because a removal joins the text around it
  into a new occurrence.

`OutputKeys.RemoveAllRejoins` proves the second case. `OutputKeys.RemoveAllSuffix`
proves that a name with a single trailing `.json` loses exactly that suffix.

## Model

| member | source | states |
|---|---|---|
| ColumnNames.Strip | jsonToparquet.py:22 | the result is the name with only whitespace removed before and after it, and neither starts nor ends with whitespace |
| Text.IsSpaceListed | jsonToparquet.py:22-24 | the whitespace `strip()` removes and `\s` matches (`Text.IsSpace`, as code-point ranges) is exactly Python's 29 `isspace` characters, listed one by one |
| ColumnNames.Lower | jsonToparquet.py:23 | same length; each ASCII capital becomes the small letter at the same place in the alphabet, and every other character is kept |
| ColumnNames.CollapseSeparators | jsonToparquet.py:24 | the substitution leaves no whitespace or `-` and never lengthens the name |
| ColumnNames.CollapseDrawsFrom | jsonToparquet.py:24 | the substitution only inserts `_`; every other character of the result comes from the input |
| ColumnNames.CollapseFixesExactlyClean | jsonToparquet.py:24 | the substitution leaves a name unchanged exactly when the name has no whitespace or `-` |
| ColumnNames.CollapseSeparatorsScan | jsonToparquet.py:24 | a left-to-right scan that emits one `_` per maximal run computes the same string as the substitution |
| ColumnNames.Normalize | jsonToparquet.py:20-25 | the canonical name has no whitespace, no `-` and no ASCII capital, and is never longer than the original name |
| ColumnNames.NormalizeIdempotent | jsonToparquet.py:20-25 | normalising a canonical name again leaves it unchanged |
| ColumnNames.NormalizeClean | jsonToparquet.py:20-25 | a name with no whitespace or `-` is only lower-cased |
| ColumnNames.NormalizeTwoWords | jsonToparquet.py:20-25 | two words separated by any run of whitespace or `-` and padded by whitespace become the lowered words joined by one `_` |
| ColumnNames.NormalizeOrderDate | jsonToparquet.py:20-25 | `" Order-Date "` becomes `order_date` |
| ColumnNames.NormalizeSpacedHyphen | jsonToparquet.py:20-25 | `"a - b"` becomes `a_b`: a mixed run of spaces and a hyphen gives one `_` |
| Tables.NormalizeHeaders | jsonToparquet.py:20-25 | the header rewrite keeps the row count, the number and order of columns and every cell, and gives each column the canonical form of its name |
| Tables.NormalizeHeadersIdempotent | jsonToparquet.py:20-25 | rewriting the headers of a rewritten table changes nothing |
| Calendar.FormatDate | jsonToparquet.py:31 | `%Y-%m-%d` spells a day in ten characters with `-` at positions 4 and 7 |
| Calendar.ParseDate | jsonToparquet.py:31 | a string accepted under the strict format is exactly the spelling of the day it yields |
| Calendar.ParseDateExactly | jsonToparquet.py:31 | a string yields a day exactly when it is that day's `%Y-%m-%d` spelling |
| Calendar.ParseDateAccepts | jsonToparquet.py:31 | `2023-01-15` is read as that day |
| Calendar.ParseDateAcceptsLeapDay | jsonToparquet.py:31 | the leap day `2024-02-29` is read as that day |
| Calendar.ParseDateRefusesMissingDay | jsonToparquet.py:31 | `2023-02-30` is refused although it has the right shape |
| Calendar.ParseDateRefusesCenturyLeapDay | jsonToparquet.py:31 | `1900-02-29` is refused: 1900 is not a leap year |
| Calendar.ParseDateRefusesOtherFormats | jsonToparquet.py:31 | `01/15/2023` and `not-a-date` are refused; so is `2023-1-15`, which the model's ten-character shape refuses although the program reads it (see Left out) |
| Cells.ToDateCell | jsonToparquet.py:31 | the date conversion is total and yields a day or null; a day read from a string spells that string (under the model's ten-character format, see Left out); a day stays that day; null stays null |
| Cells.ToDateCellAccepts | jsonToparquet.py:31 | every correctly spelt valid day is converted to that day |
| Cells.ToDateCellRejectsShape | jsonToparquet.py:31 | a string not shaped `YYYY-MM-DD` becomes null in the model, although pandas reads some such spellings as dates (see Left out) |
| Cells.ToDateCellExamples | jsonToparquet.py:31 | `2023-01-15` becomes that day; `2023-02-30` and `01/15/2023` become null |
| Text.NatToString | jsonToparquet.py:36 | the decimal text of a natural number is all digits, has no leading zero and denotes that number |
| Text.IntToString | jsonToparquet.py:36 | `str()` of an integer starts with `-` exactly when it is negative, followed by the shortest digits of its magnitude |
| Cells.PyStr | jsonToparquet.py:36 | `str()` of a cell: a string is itself, null is `None`, a boolean is `True` or `False`, and an integer's or a day's text reads back as that value |
| Cells.ToTextCell | jsonToparquet.py:36 | every cell becomes text, null included (as `None`); a string is kept; an integer's or a day's text reads back as the same value |
| Numerals.WholeValue | jsonToparquet.py:40 | a numeral has an integer value exactly when its rational value is whole, and then it is that value |
| Numerals.ParseIntToString | jsonToparquet.py:40 | the decimal text of any integer is read back as that integer |
| Cells.NumericValue | jsonToparquet.py:40 | `pd.to_numeric` reads an integer, float or boolean as its number, a digit string as its decimal value, and the empty string, null, days and other values as no number |
| Cells.SignedNumber | jsonToparquet.py:40 | a string of an optional sign and digits is read as the signed number they spell |
| Cells.DecimalNumber | jsonToparquet.py:40 | a string `±whole.fraction` is read as `±(whole + fraction / 10^k)`, with `k` the number of fraction digits |
| Cells.NoDigitNull | jsonToparquet.py:40 | a string without a digit is no number, and the integer conversion makes it null |
| Cells.NonNumeralNull | jsonToparquet.py:40 | a string holding a character other than a digit, a point or a leading sign is no number, and the integer conversion makes it null |
| Cells.SecondPointNull | jsonToparquet.py:40 | a string with two decimal points is no number, and the integer conversion makes it null |
| Numerals.ParseNumeral | jsonToparquet.py:40 | only a non-empty string is a numeral; what it reads is stated by the five lemmas below |
| Numerals.NoDigitNone | jsonToparquet.py:40 | a string without a digit (`+`, `-`, `.`, `+.`, `-.`) is no numeral |
| Numerals.ParseSigned | jsonToparquet.py:40 | an optional sign and digits form the numeral of the signed integer they spell, at scale zero |
| Numerals.ParseDecimal | jsonToparquet.py:40 | an optional sign, digits, a point and digits (not both runs empty) form a numeral whose value is `±(whole + fraction / 10^k)` |
| Numerals.NonNumeralChar | jsonToparquet.py:40 | a character other than a digit, a point or a leading sign makes a string no numeral |
| Numerals.SecondPoint | jsonToparquet.py:40 | a second decimal point makes a string no numeral |
| Cells.ToNullableIntCell | jsonToparquet.py:40 | a non-number becomes null; a number converts exactly when it is whole and fits in 64 bits, and then becomes that integer; otherwise the cast fails |
| Cells.ToNullableIntReadsIntegers | jsonToparquet.py:40 | the text of any 64-bit integer converts to that integer |
| Cells.ToNullableIntExamples | jsonToparquet.py:40 | `"42"` becomes 42; `"abc"` and `""` become null; 7 stays 7; `"3.5"` cannot be cast |
| Tables.RuleFor | jsonToparquet.py:28-40 | a column gets a conversion exactly when a step names it, and it gets that step's conversion |
| Tables.ConvertCells | jsonToparquet.py:31-40 | a column converts exactly when every one of its cells does, and the result is the cells converted one by one, in order |
| Tables.ApplyConversion | jsonToparquet.py:29-40 | one step keeps the row count, the column names and equal column lengths; it fails only on an integer cast, naming its column |
| Tables.ApplyConversions | jsonToparquet.py:28-40 | the steps in order keep the row count, the column names and equal column lengths; a failure names a column cast to integers |
| Tables.ConversionsPerColumn | jsonToparquet.py:28-40 | with distinct names the steps act column by column: the run fails exactly when one column's own conversion fails, and otherwise each column is its own outcome, untouched when no step names it |
| Handler.Expected | jsonToparquet.py:28-40 | the reference treatment of one cell by column name: only `ind1` and `ind2` can fail, date columns hold days or nulls, `returns` holds strings, integer columns hold integers or nulls, and every other column keeps its cell |
| Handler.ConversionsDistinct | jsonToparquet.py:28-40 | no column is named by two steps |
| Handler.IntegerSteps | jsonToparquet.py:38-40 | only `ind1` and `ind2` are cast to integers |
| Handler.OutcomeIsExpected | jsonToparquet.py:28-40 | the step table treats every column as the reference definition does: dates for `order_date` and `ship_date`, text for `returns`, integers for `ind1` and `ind2`, untouched otherwise |
| Handler.Curate | jsonToparquet.py:20-44 | rewriting and converting keeps the row count and equal column lengths, and the names are the canonical ones, all distinct; two headers with one canonical name fail, and otherwise only an `ind1` or `ind2` cast can fail |
| Handler.ConvertByColumn | jsonToparquet.py:28-40 | the conversions fail exactly when some cell fails the reference definition; otherwise each column keeps its name and length and holds its cells converted by the reference definition |
| Handler.CurateByColumn | jsonToparquet.py:20-40 | the same, stated against the original headers: each column gets the canonical name and its cells converted according to that name |
| Text.FieldRoundTrip | jsonToparquet.py:53 | a zero-padded two- or four-digit field reads back as the number written |
| OutputKeys.Timestamp | jsonToparquet.py:53 | `%Y%m%d_%H%M%S` is fifteen characters: eight digits, `_`, six digits, and no `/` |
| OutputKeys.ParseTimestamp | jsonToparquet.py:53 | a string read as a timestamp is exactly the timestamp of the reading it yields |
| OutputKeys.ParseTimestampExactly | jsonToparquet.py:53 | a timestamp names its clock reading uniquely |
| OutputKeys.TimestampExample | jsonToparquet.py:53 | 10:00:00 on 1 March 2024 is `20240301_100000` |
| OutputKeys.LastSegment | jsonToparquet.py:54 | the last segment is a suffix of the key with no `/`, preceded by `/` unless it is the whole key |
| OutputKeys.LastSegmentAfter | jsonToparquet.py:54 | the last segment is exactly what follows the last `/` |
| OutputKeys.LastSegmentWhole | jsonToparquet.py:54 | a key with no `/` is its own last segment |
| OutputKeys.RemoveAll | jsonToparquet.py:54 | removal never lengthens the name and adds no character |
| OutputKeys.RemoveAllSplit | jsonToparquet.py:54 | every `.json` is removed wherever it stands: removing from `a + ".json" + b` equals removing from `a` and from `b` and joining the results |
| OutputKeys.RemoveAllAbsent | jsonToparquet.py:54 | a name in which `.json` does not occur is unchanged |
| OutputKeys.RemoveAllSuffix | jsonToparquet.py:54 | a name with one `.json`, at its end, loses exactly that suffix |
| OutputKeys.RemoveAllInner | jsonToparquet.py:54 | an inner `.json` is removed as well: `a.jsonb.json` becomes `ab` |
| OutputKeys.RemoveAllRejoins | jsonToparquet.py:54 | a removal can create a new `.json` that stays: `a.j.jsonson` becomes `a.json` |
| OutputKeys.BaseName | jsonToparquet.py:54 | the base name contains no `/` |
| OutputKeys.BaseNameExample | jsonToparquet.py:54 | the base name of `data/orders.json` is `orders` |
| OutputKeys.KeyFor | jsonToparquet.py:55 | the key is the prefix `outputfolder/`, the base, `_`, the timestamp and `.parquet`, each at its fixed place |
| OutputKeys.OutputKey | jsonToparquet.py:53-55 | the key starts with `outputfolder/`, ends with `.parquet`, is 37 characters longer than the base, holds the timestamp before the suffix, and has no `/` after the prefix |
| OutputKeys.ParseOutputKey | jsonToparquet.py:55 | a key read back gives a base without `/` and a reading that spell that same key |
| OutputKeys.ParseOutputKeyExactly | jsonToparquet.py:55 | a key is read back as a base and a reading exactly when it is their spelling and the base has no `/` |
| OutputKeys.OutputKeyRoundTrip | jsonToparquet.py:53-55 | the handler's key reads back as the base name and the clock reading |
| OutputKeys.OutputKeyInjective | jsonToparquet.py:53-55 | two invocations share an output key only when their base names and clock readings are equal |
| OutputKeys.OutputKeyExample | jsonToparquet.py:53-55 | `data/orders.json` at 10:00:00 on 1 March 2024 is written to `outputfolder/orders_20240301_100000.parquet` |
| Handler.Handle | jsonToparquet.py:20-56 | an invocation uploads exactly when curation succeeds, and never when two headers share a canonical name; it uploads the curated table under a key that reads back as the base name and the clock reading |

## Left out

- S3 reads and writes, the boto3 clients and reading the bucket and key from
  the event record (lines 10-16 and 56). These are network I/O; the model
  starts from the key and the table that was read.
- `pd.read_json` and pandas' type inference (line 17). The model starts
  from a table of tagged cells. Non-string column labels and nested values
  come from that inference and are not modelled beyond the `Other` cell.
- Parquet serialisation with the `spark` flavour and
  `coerce_timestamps='ms'` (lines 43-50). This is a foreign binary format;
  the model hands the converted table over as it is.
- The Glue crawler trigger and the fixed 200 response (lines 59-66). These
  are an external side effect and a constant.
- `datetime.now()` (line 53). The clock reading is the `now` parameter of
  `Handler.Handle`.
- Handler.CurateByColumn: this lemma and `Handler.ConvertByColumn` state the
  column-by-column reading for tables whose canonical names are distinct.
  Tables with colliding names fail in `Handler.Curate` instead.
- Handler.Curate: on colliding names it reports `DuplicateColumns` before
  any conversion. The program may raise a failing `Int64` cast on another
  column first; either way nothing is written.
- ColumnNames.Lower: lower-cases only ASCII letters. Python's `str.lower`
  also maps non-ASCII letters, and that Unicode table is not modelled.
- Calendar.ParseDate: it accepts only the ten-character shape `YYYY-MM-DD`
  in ASCII digits. pandas' `%Y-%m-%d` parser reads further spellings, among
  them: a one-digit month or day after a `-` (`2023-1-15`); a space before a
  one-digit day (`2023-01- 5` is 5 January 2023); other Unicode decimal
  digits, which its fallback regular expression matches with `\d` (a year in
  full-width digits, `２０２３-01-15`); and, in pandas 2 and later, the words
  `now` and `today` as the clock's current date. All of these are null in
  the model. This also holds for
  `Calendar.ParseDateExactly`, `Calendar.ParseDateRefusesOtherFormats`,
  `Cells.ToDateCell` and `Cells.ToDateCellRejectsShape`.
- Cells.ToDateCell: a date outside pandas' nanosecond timestamp range
  (before 1677-09-22 or after 2262-04-11) is accepted here. pandas before
  version 3 turns it into null. The model accepts years 1 to 9999 without
  that limit.
- Cells.ToTextCell: a float cell carries the text Python prints for it; that
  rendering (`repr` of a double, `nan`, `5.0` in a float column) is not
  modelled.
- Cells.ToTextCell: every null prints as `None`, which is right only for a
  JSON `null` in a column of objects. A key missing from some records
  reaches pandas as NaN, and `astype(str)` prints it as `nan`. The model has
  one null and does not tell the two apart; the same holds for
  `Cells.PyStr`. Under pandas 3, whose default string dtype keeps missing
  values missing, `astype(str)` leaves a null as null instead.
- Text.IsSpaceListed: the model follows pandas 2, where column labels and
  text columns are Python strings, so `\s` at line 24 is Python's `\s`.
  Under pandas 3 with pyarrow installed, labels get the pyarrow-backed
  string dtype and `str.replace` runs on RE2, whose `\s` is only tab,
  newline, form feed, carriage return and space. There `a\u00A0b` and `a\vb`
  keep their separator, while `ColumnNames.CollapseSeparators` turns both
  into `a_b`.
- Numerals.WholeValue: values are exact rationals, not doubles. A long
  numeral that a double would round to a whole number is not whole here.
  Likewise, when a column also holds a null, `pd.to_numeric` reads integers
  above 2^53 as doubles: `"9007199254740993"` next to `"x"` is written as
  9007199254740992, while the model keeps the exact value.
- Cells.ToNullableIntCell: numerals with exponents, surrounding whitespace,
  or the spellings `inf` and `nan` are treated as non-numbers.
- OutputKeys.Timestamp: the year is always four zero-padded digits. Below
  year 1000, C libraries differ on how `%Y` is padded.
- Handler.Handle: mixed-type columns that pyarrow refuses to write are
  treated as written, since Parquet writing is left out.

=== FILE: calendar.dfy ===
/** Gregorian calendar dates and their strict `YYYY-MM-DD` text form. */
module Calendar {
  import opened Results
  import opened Text

  datatype Date = Date(year: int, month: int, day: int)

  predicate IsLeapYear(y: int) {
    y % 4 == 0 && (y % 100 != 0 || y % 400 == 0)
  }

  function DaysInMonth(y: int, m: int): int
    requires 1 <= m <= 12
  {
    if m == 2 then (if IsLeapYear(y) then 29 else 28)
    else if m == 4 || m == 6 || m == 9 || m == 11 then 30
    else 31
  }

  /** A day Python's `datetime.date` can hold: years 1 to 9999. */
  predicate ValidDate(d: Date) {
    && 1 <= d.year <= 9999
    && 1 <= d.month <= 12
    && 1 <= d.day <= DaysInMonth(d.year, d.month)
  }

  type CalendarDate = d: Date | ValidDate(d) witness Date(1970, 1, 1)

  /** `str(date)`: four-digit year, two-digit month and day, dash-separated. */
  function FormatDate(d: CalendarDate): (r: string)
    ensures |r| == 10 && r[4] == '-' && r[7] == '-'
  {
    Digits4(d.year) + "-" + Digits2(d.month) + "-" + Digits2(d.day)
  }

  /** Ten characters, digits everywhere except a `-` at positions 4 and 7. */
  predicate IsDateShape(s: string) {
    && |s| == 10 && s[4] == '-' && s[7] == '-'
    && AllDigits(s[..4]) && AllDigits(s[5..7]) && AllDigits(s[8..])
  }

  /** A date-shaped string is its three fields joined by dashes. */
  lemma DateSpelling(s: string)
    requires IsDateShape(s)
    ensures s == s[..4] + "-" + s[5..7] + "-" + s[8..]
  {
  }

  /** Strict parse under the format `%Y-%m-%d`: the shape must match exactly
      and the fields must name a real calendar day. */
  function ParseDate(s: string): (r: Option<CalendarDate>)
    ensures r.Some? ==> FormatDate(r.value) == s
  {
    if !IsDateShape(s) then None
    else
      var d := Date(Value4(s[..4]), Value2(s[5..7]), Value2(s[8..]));
      if ValidDate(d) then
        DateSpelling(s);
        Some(d)
      else None
  }

  /** Strict parsing accepts exactly the formatted valid dates. */
  lemma ParseDateExactly(s: string, d: CalendarDate)
    ensures ParseDate(s) == Some(d) <==> FormatDate(d) == s
  {
    if FormatDate(d) == s {
      assert s[..4] == Digits4(d.year) && s[5..7] == Digits2(d.month) && s[8..] == Digits2(d.day);
      FieldRoundTrip(d.year);
      FieldRoundTrip(d.month);
      FieldRoundTrip(d.day);
    }
  }

  /** A date-shaped string names the day its fields spell. */
  lemma ReadDate(s: string, y: nat, m: nat, d: nat)
    requires IsDateShape(s)
    requires Value4(s[..4]) == y && Value2(s[5..7]) == m && Value2(s[8..]) == d
    ensures ParseDate(s) == if ValidDate(Date(y, m, d)) then Some(Date(y, m, d)) else None
  {
  }

  // The examples below receive their strings as parameters fixed by a
  // `requires s == "..."`, and spell them out piece by piece in small
  // helper lemmas: a string literal written directly into a contract is
  // unfolded through every recursive definition applied to it, which makes
  // the proof far more expensive than the fact it states.

  /** A well-formed date string is accepted with the day it names. */
  lemma ParseDateAccepts(s: string)
    requires s == "2023-01-15"
    ensures ParseDate(s) == Some(Date(2023, 1, 15))
  {
    assert IsDateShape(s);
    ReadDate(s, 2023, 1, 15);
  }

  /** The leap day of a leap year is accepted. */
  lemma ParseDateAcceptsLeapDay(s: string)
    requires s == "2024-02-29"
    ensures ParseDate(s) == Some(Date(2024, 2, 29))
  {
    assert IsDateShape(s);
    ReadDate(s, 2024, 2, 29);
  }

  /** A day past the end of its month is refused even in the right shape. */
  lemma ParseDateRefusesMissingDay(s: string)
    requires s == "2023-02-30"
    ensures ParseDate(s) == None
  {
    assert IsDateShape(s);
    ReadDate(s, 2023, 2, 30);
  }

  /** A century year not divisible by 400 has no leap day. */
  lemma ParseDateRefusesCenturyLeapDay(s: string)
    requires s == "1900-02-29"
    ensures ParseDate(s) == None
  {
    assert IsDateShape(s);
    ReadDate(s, 1900, 2, 29);
  }

  /** Other spellings of a date are refused. */
  lemma ParseDateRefusesOtherFormats()
    ensures ParseDate("01/15/2023") == None
    ensures ParseDate("2023-1-15") == None
    ensures ParseDate("not-a-date") == None
  {
  }
}

=== FILE: cells.dfy ===
/** Table cells as a tagged value, and the three per-cell conversions of
    jsonToparquet.py, lines 28-40. */
module Cells {
  import opened Results
  import opened Text
  import opened Numerals
  import opened Calendar

  /** One cell of the table `pd.read_json` builds. A float carries the text
      Python's `str()` gives it; `Other` stands for a nested list or object,
      with its `str()` text. */
  datatype Cell =
    | Null
    | Str(s: string)
    | Int(i: int)
    | Real(x: real, text: string)
    | Bool(b: bool)
    | Day(date: CalendarDate)
    | Other(text: string)

  const Int64Min: int := -0x8000_0000_0000_0000
  const Int64Max: int := 0x7FFF_FFFF_FFFF_FFFF

  /** The range of pandas' nullable `Int64`. */
  predicate InInt64(i: int) {
    Int64Min <= i <= Int64Max
  }

  /** `pd.to_datetime(format='%Y-%m-%d', errors='coerce')` followed by `.dt.date`:
      a string becomes the day it spells under the strict format, or null when
      it does not spell one; a day stays that day; anything else is null. */
  function ToDateCell(c: Cell): (r: Cell)
    ensures r.Null? || r.Day?
    ensures r.Day? && c.Str? ==> FormatDate(r.date) == c.s
    ensures r.Day? && !c.Str? ==> r == c
    ensures c.Null? ==> r.Null?
    ensures c.Day? ==> r == c
  {
    match c
    case Str(s) =>
      (match ParseDate(s)
       case Some(d) => Day(d)
       case None => Null)
    case Day(_) => c
    case _ => Null
  }

  /** Every string that spells a valid day in `YYYY-MM-DD` is converted to
      that day; together with the contract above, a string cell becomes
      `Day(d)` exactly when it is `FormatDate(d)`. */
  lemma ToDateCellAccepts(d: CalendarDate)
    ensures ToDateCell(Str(FormatDate(d))) == Day(d)
  {
    ParseDateExactly(FormatDate(d), d);
  }

  /** A string that does not have the shape `YYYY-MM-DD` becomes null. */
  lemma ToDateCellRejectsShape(s: string)
    requires !IsDateShape(s)
    ensures ToDateCell(Str(s)) == Null
  {
  }

  /** The date examples: an impossible day and another date format become null. */
  lemma ToDateCellExamples(a: string, b: string, c: string)
    requires a == "2023-01-15" && b == "2023-02-30" && c == "01/15/2023"
    ensures ToDateCell(Str(a)) == Day(Date(2023, 1, 15))
    ensures ToDateCell(Str(b)) == Null
    ensures ToDateCell(Str(c)) == Null
  {
    ParseDateAccepts(a);
    ParseDateRefusesMissingDay(b);
    ParseDateRefusesOtherFormats();
  }

  /** Python's `str()` of a cell, which `astype(str)` applies. A string is
      itself, null is `None`, a boolean is `True` or `False`, and the text of
      an integer or a day reads back as the same value. */
  function PyStr(c: Cell): (r: string)
    ensures c.Str? ==> r == c.s
    ensures c.Null? ==> r == "None"
    ensures c.Bool? ==> (r == "True" <==> c.b) && (r == "False" <==> !c.b)
    ensures c.Int? ==> ParseNumeral(r) == Some(Numeral(c.i, 0))
    ensures c.Day? ==> ParseDate(r) == Some(c.date)
  {
    match c
    case Null => "None"
    case Str(s) => s
    case Int(i) => ParseIntToString(i); IntToString(i)
    case Real(_, text) => text
    case Bool(b) => if b then "True" else "False"
    case Day(d) => ParseDateExactly(FormatDate(d), d); FormatDate(d)
    case Other(text) => text
  }

  /** `astype(str)`: every cell, null included, becomes a string. Strings are
      kept, and the text of an integer or a day reads back as the same value. */
  function ToTextCell(c: Cell): (r: Cell)
    ensures r.Str?
    ensures c.Str? ==> r == c
    ensures c.Int? ==> ParseNumeral(r.s) == Some(Numeral(c.i, 0))
    ensures c.Day? ==> ParseDate(r.s) == Some(c.date)
    ensures c.Null? ==> r == Str("None")
  {
    Str(PyStr(c))
  }

  /** The number `pd.to_numeric(errors='coerce')` reads from a cell, if any:
      an integer or a boolean is a number, a string of decimal digits is read
      as its decimal value, the empty string and cells that are neither
      numbers nor strings are not numbers. */
  function NumericValue(c: Cell): (r: Option<real>)
    ensures c.Int? ==> r == Some(c.i as real)
    ensures c.Real? ==> r == Some(c.x)
    ensures c.Bool? ==> r == Some(if c.b then 1.0 else 0.0)
    ensures c.Null? || c.Day? || c.Other? ==> r.None?
    ensures c.Str? && c.s == "" ==> r.None?
    ensures c.Str? && 0 < |c.s| && AllDigits(c.s) ==> r == Some(DigitsValue(c.s) as real)
  {
    match c
    case Str(s) =>
      var r := match ParseNumeral(s)
        case Some(n) => Some(Value(n))
        case None => None;
      if 0 < |s| && AllDigits(s) then ParseDigits(s); r else r
    case Int(i) => Some(i as real)
    case Real(x, _) => Some(x)
    case Bool(b) => Some(if b then 1.0 else 0.0)
    case _ => None
  }

  /** A string with a sign and digits is the signed number they spell. */
  lemma SignedNumber(sign: string, digits: string)
    requires sign == "" || sign == "+" || sign == "-"
    requires 0 < |digits| && AllDigits(digits)
    ensures NumericValue(Str(sign + digits))
      == Some(if sign == "-" then -(DigitsValue(digits) as real) else DigitsValue(digits) as real)
  {
    ParseSigned(sign, digits);
  }

  /** A string `±whole.fraction` is the number `±(whole + fraction / 10^k)`,
      with `k` the count of fraction digits. */
  lemma DecimalNumber(sign: string, whole: string, fraction: string)
    requires sign == "" || sign == "+" || sign == "-"
    requires AllDigits(whole) && AllDigits(fraction) && 0 < |whole| + |fraction|
    ensures var v := DigitsValue(whole) as real + DigitsValue(fraction) as real / Pow10(|fraction|) as real;
      NumericValue(Str(sign + whole + "." + fraction)) == Some(if sign == "-" then -v else v)
  {
    ParseDecimal(sign, whole, fraction);
  }

  /** A string holding a character no numeral has, or a second point, is no
      number, and the integer columns turn it into null. */
  lemma NonNumeralNull(s: string, i: int)
    requires 0 <= i < |s| && !IsDigit(s[i]) && s[i] != '.'
    requires 0 < i || (s[i] != '-' && s[i] != '+')
    ensures NumericValue(Str(s)) == None
    ensures ToNullableIntCell(Str(s)) == Some(Null)
  {
    NonNumeralChar(s, i);
  }

  /** A string without a digit (`+`, `-`, `.`, `+.`, `""`, ...) is no number,
      and the integer conversion makes it null. */
  lemma NoDigitNull(s: string)
    requires forall i | 0 <= i < |s| :: !IsDigit(s[i])
    ensures NumericValue(Str(s)) == None
    ensures ToNullableIntCell(Str(s)) == Some(Null)
  {
    NoDigitNone(s);
  }

  /** A second decimal point makes a string no number; it becomes null. */
  lemma SecondPointNull(s: string, i: int, j: int)
    requires 0 <= i < j < |s| && s[i] == '.' && s[j] == '.'
    ensures NumericValue(Str(s)) == None
    ensures ToNullableIntCell(Str(s)) == Some(Null)
  {
    SecondPoint(s, i, j);
  }

  /** `pd.to_numeric(errors='coerce').astype('Int64')` on one cell. `None` means
      the cast raises, which aborts the conversion: the number read is not
      whole, or does not fit in 64 bits. A non-number becomes null; a whole
      number becomes that integer. */
  function ToNullableIntCell(c: Cell): (r: Option<Cell>)
    ensures NumericValue(c).None? ==> r == Some(Null)
    ensures NumericValue(c).Some? ==>
      var x := NumericValue(c).value;
      (r.Some? <==> IsWhole(x) && InInt64(x.Floor))
      && (r.Some? ==> r.value.Int? && r.value.i as real == x)
  {
    match c
    case Str(s) =>
      (match ParseNumeral(s)
       case None => Some(Null)
       case Some(n) =>
         (match WholeValue(n)
          case Some(k) => if InInt64(k) then Some(Int(k)) else None
          case None => None))
    case Int(i) => if InInt64(i) then Some(c) else None
    case Real(x, _) => if IsWhole(x) && InInt64(x.Floor) then Some(Int(x.Floor)) else None
    case Bool(b) => Some(Int(if b then 1 else 0))
    case _ => Some(Null)
  }

  /** The decimal text of any 64-bit integer converts back to it. */
  lemma ToNullableIntReadsIntegers(i: int)
    requires InInt64(i)
    ensures ToNullableIntCell(Str(IntToString(i))) == Some(Int(i))
  {
    ParseIntToString(i);
    assert WholeValue(Numeral(i, 0)) == Some(i);
  }

  /** The nullable-integer examples: `"42"` is 42, `"abc"` and `""` are null,
      an integer 7 stays 7, and `"3.5"` cannot be cast. */
  lemma ToNullableIntExamples(a: string, b: string, e: string)
    requires a == "abc" && b == "3.5" && e == ""
    ensures ToNullableIntCell(Str("42")) == Some(Int(42))
    ensures ToNullableIntCell(Str(a)) == Some(Null)
    ensures ToNullableIntCell(Str(e)) == Some(Null)
    ensures ToNullableIntCell(Int(7)) == Some(Int(7))
    ensures ToNullableIntCell(Str(b)) == None
  {
    FortyTwoRead("42");
    assert FindDot(a) == None && !AllDigits(a);
    FractionRefused(b);
  }

  /** `"42"` is the text of the integer 42, so it converts to 42. */
  lemma FortyTwoRead(s: string)
    requires s == "42"
    ensures ToNullableIntCell(Str(s)) == Some(Int(42))
  {
    ToNullableIntReadsIntegers(42);
    assert IntToString(42) == s;
  }

  /** `"3.5"` reads as the numeral 35 over one decimal place, not a whole number. */
  lemma FractionRefused(b: string)
    requires b == "3.5"
    ensures ToNullableIntCell(Str(b)) == None
  {
    assert b[1..] == ".5";
    assert FindDot(b) == Some(1);
    var whole, fraction := b[..1], b[2..];
    assert whole == "3" && fraction == "5";
    assert whole + fraction == "35";
    assert DigitsValue(whole + fraction) == 35 by {
      assert (whole + fraction)[..1] == "3";
      assert DigitsValue("3") == 3;
    }
    assert ParseNumeral(b) == Some(Numeral(35, 1));
  }
}

=== FILE: column_names.dfy ===
/** Canonical column names: `strip()`, then `lower()`, then every run of
    whitespace or `-` replaced by one `_` (jsonToparquet.py, lines 20-25). */
module ColumnNames {
  import opened Text

  /** Leading whitespace removed. */
  function TrimStart(s: string): (r: string)
    ensures |r| <= |s| && r == s[|s| - |r|..]
    ensures forall i | 0 <= i < |s| - |r| :: IsSpace(s[i])
    ensures |r| > 0 ==> !IsSpace(r[0])
  {
    if |s| > 0 && IsSpace(s[0]) then TrimStart(s[1..]) else s
  }

  /** Trailing whitespace removed. */
  function TrimEnd(s: string): (r: string)
    ensures |r| <= |s| && r == s[..|r|]
    ensures forall i | |r| <= i < |s| :: IsSpace(s[i])
    ensures |r| > 0 ==> !IsSpace(r[|r| - 1])
  {
    if |s| > 0 && IsSpace(s[|s| - 1]) then TrimEnd(s[..|s| - 1]) else s
  }

  /** `r` is `s` with whitespace before position `lo` and after `lo + |r|`. */
  ghost predicate StrippedAt(s: string, r: string, lo: int) {
    && 0 <= lo <= |s| - |r|
    && s[lo..lo + |r|] == r
    && (forall i | 0 <= i < lo :: IsSpace(s[i]))
    && (forall i | lo + |r| <= i < |s| :: IsSpace(s[i]))
  }

  /** Python's `str.strip()`: the part of `s` between its leading and its
      trailing whitespace, which itself neither starts nor ends with whitespace. */
  function Strip(s: string): (r: string)
    ensures exists lo :: StrippedAt(s, r, lo)
    ensures |r| > 0 ==> !IsSpace(r[0]) && !IsSpace(r[|r| - 1])
  {
    var front := TrimStart(s);
    var r := TrimEnd(front);
    TrimBoth(s, front, r);
    r
  }

  /** Trimming both ends leaves the part of `s` between its outer whitespace. */
  lemma TrimBoth(s: string, front: string, r: string)
    requires |front| <= |s| && front == s[|s| - |front|..]
    requires forall i | 0 <= i < |s| - |front| :: IsSpace(s[i])
    requires |r| <= |front| && r == front[..|r|]
    requires forall i | |r| <= i < |front| :: IsSpace(front[i])
    ensures StrippedAt(s, r, |s| - |front|)
  {
    var lo := |s| - |front|;
    SliceInside(s, front, r);
    forall i | lo + |r| <= i < |s|
      ensures IsSpace(s[i])
    {
      assert s[i] == front[i - lo];
    }
  }

  /** A prefix of a suffix of `s` is a slice of `s`. */
  lemma SliceInside(s: string, front: string, r: string)
    requires |front| <= |s| && front == s[|s| - |front|..]
    requires |r| <= |front| && r == front[..|r|]
    ensures s[|s| - |front|..|s| - |front| + |r|] == r
  {
  }

  /** Python's `str.lower()` on ASCII letters. */
  function Lower(s: string): (r: string)
    ensures |r| == |s|
    ensures forall i | 0 <= i < |r| :: !IsUpper(r[i])
    ensures forall i | 0 <= i < |r| :: IsSeparator(r[i]) == IsSeparator(s[i])
    ensures forall i | 0 <= i < |s| :: !IsUpper(s[i]) ==> r[i] == s[i]
    ensures forall i | 0 <= i < |s| :: IsUpper(s[i]) ==>
      'a' <= r[i] <= 'z' && r[i] as int - 'a' as int == s[i] as int - 'A' as int
  {
    seq(|s|, i requires 0 <= i < |s| => ToLower(s[i]))
  }

  /** Length of the run of separators `s` starts with. */
  function SeparatorRun(s: string): (n: nat)
    ensures 0 < |s| && IsSeparator(s[0]) ==> 0 < n
    ensures n <= |s|
    ensures forall i | 0 <= i < n :: IsSeparator(s[i])
    ensures n < |s| ==> !IsSeparator(s[n])
  {
    if 0 < |s| && IsSeparator(s[0]) then 1 + SeparatorRun(s[1..]) else 0
  }

  predicate NoSeparator(s: string) {
    forall i | 0 <= i < |s| :: !IsSeparator(s[i])
  }

  /** `re.sub(r'[\s\-]+', '_', s)`: scanning left to right, each maximal run
      of separators becomes a single `_` and every other character is kept. */
  function CollapseSeparators(s: string): (r: string)
    ensures |r| <= |s|
    ensures NoSeparator(r)
    decreases |s|
  {
    if |s| == 0 then ""
    else if IsSeparator(s[0]) then "_" + CollapseSeparators(s[SeparatorRun(s)..])
    else [s[0]] + CollapseSeparators(s[1..])
  }

  /** Collapsing inserts `_` and otherwise only keeps characters of `s`. */
  lemma {:induction false} CollapseDrawsFrom(s: string)
    ensures forall i | 0 <= i < |CollapseSeparators(s)| ::
      CollapseSeparators(s)[i] == '_' || CollapseSeparators(s)[i] in s
    decreases |s|
  {
    if |s| > 0 {
      var n := if IsSeparator(s[0]) then SeparatorRun(s) else 1;
      CollapseDrawsFrom(s[n..]);
      var rest := CollapseSeparators(s[n..]);
      forall i | 0 <= i < |rest| ensures rest[i] == '_' || rest[i] in s {
        if rest[i] != '_' {
          var k :| 0 <= k < |s[n..]| && s[n..][k] == rest[i];
          assert s[n + k] == rest[i];
        }
      }
      var r := CollapseSeparators(s);
      forall i | 0 <= i < |r| ensures r[i] == '_' || r[i] in s {
        if i > 0 {
          assert r[i] == rest[i - 1];
        }
      }
    }
  }

  /** Collapsing leaves a string unchanged exactly when it holds no separator. */
  lemma {:induction false} CollapseFixesExactlyClean(s: string)
    ensures CollapseSeparators(s) == s <==> NoSeparator(s)
    decreases |s|
  {
    if |s| > 0 && !IsSeparator(s[0]) {
      CollapseFixesExactlyClean(s[1..]);
      if NoSeparator(s) {
        assert NoSeparator(s[1..]);
      }
    }
  }

  predicate NoUpper(s: string) {
    forall i | 0 <= i < |s| :: !IsUpper(s[i])
  }

  /** Characters drawn from an upper-case-free string, or `_`, are not upper case. */
  lemma NoUpperFromSource(r: string, s: string)
    requires NoUpper(s)
    requires forall i | 0 <= i < |r| :: r[i] == '_' || r[i] in s
    ensures NoUpper(r)
  {
  }

  /** The canonical form of one column name. */
  function Normalize(name: string): (r: string)
    ensures |r| <= |name|
    ensures NoSeparator(r) && NoUpper(r)
  {
    var lowered := Lower(Strip(name));
    var r := CollapseSeparators(lowered);
    CollapseDrawsFrom(lowered);
    NoUpperFromSource(r, lowered);
    r
  }

  /** A canonical name is its own canonical form: normalizing twice is
      normalizing once. */
  lemma {:induction false} NormalizeIdempotent(name: string)
    ensures Normalize(Normalize(name)) == Normalize(name)
  {
    var n := Normalize(name);
    assert forall i | 0 <= i < |n| :: !IsSeparator(n[i]);
    assert TrimStart(n) == n;
    assert TrimEnd(n) == n;
    assert Strip(n) == n;
    assert Lower(n) == n;
    CollapseFixesExactlyClean(n);
  }

  /** A name with no whitespace or hyphen only has its letters lowered. */
  lemma NormalizeClean(s: string)
    requires NoSeparator(s)
    ensures Normalize(s) == Lower(s)
  {
    assert TrimStart(s) == s;
    assert TrimEnd(s) == s;
    CollapseFixesExactlyClean(Lower(s));
  }

  /** Inside a run, dropping the first separator changes nothing. */
  lemma CollapseInsideRun(t: string)
    requires 2 <= |t| && IsSeparator(t[0]) && IsSeparator(t[1])
    ensures CollapseSeparators(t) == CollapseSeparators(t[1..])
  {
  }

  /** A run of length one becomes one `_`. */
  lemma CollapseShortRun(t: string)
    requires 1 <= |t| && IsSeparator(t[0]) && (|t| == 1 || !IsSeparator(t[1]))
    ensures CollapseSeparators(t) == "_" + CollapseSeparators(t[1..])
  {
  }

  /** A prefix without separators is copied unchanged. */
  lemma {:induction false} CollapseCleanPrefix(a: string, b: string)
    requires NoSeparator(a)
    ensures CollapseSeparators(a + b) == a + CollapseSeparators(b)
    decreases |a|
  {
    if |a| > 0 {
      var t := a[1..] + b;
      assert a + b == [a[0]] + t;
      CollapseKeeps(a[0], t);
      CollapseCleanPrefix(a[1..], b);
      var rest := CollapseSeparators(b);
      assert [a[0]] + a[1..] == a;
      assert [a[0]] + (a[1..] + rest) == ([a[0]] + a[1..]) + rest;
    } else {
      assert a + b == b;
    }
  }

  /** A character that is no separator is copied. */
  lemma CollapseKeeps(c: char, t: string)
    requires !IsSeparator(c)
    ensures CollapseSeparators([c] + t) == [c] + CollapseSeparators(t)
  {
  }

  lemma CollapseRunPrefix(run: string, b: string)
    requires 0 < |run| && forall i | 0 <= i < |run| :: IsSeparator(run[i])
    requires |b| == 0 || !IsSeparator(b[0])
    ensures CollapseSeparators(run + b) == "_" + CollapseSeparators(b)
  {
    var s := run + b;
    assert forall i | 0 <= i < |run| :: s[i] == run[i];
    assert 0 < |b| ==> s[|run|] == b[0];
    assert SeparatorRun(s) == |run|;
    assert s[|run|..] == b;
  }

  predicate AllSpace(s: string) {
    forall i | 0 <= i < |s| :: IsSpace(s[i])
  }

  /** Leading whitespace in front of a string that does not start with
      whitespace is exactly what `TrimStart` removes. */
  lemma {:induction false} TrimStartSpaces(pre: string, y: string)
    requires AllSpace(pre) && (0 < |y| ==> !IsSpace(y[0]))
    ensures TrimStart(pre + y) == y
    decreases |pre|
  {
    if 0 < |pre| {
      assert (pre + y)[1..] == pre[1..] + y;
      TrimStartSpaces(pre[1..], y);
    } else {
      assert pre + y == y;
    }
  }

  /** Trailing whitespace after a string that does not end with whitespace
      is exactly what `TrimEnd` removes. */
  lemma {:induction false} TrimEndSpaces(y: string, post: string)
    requires AllSpace(post) && (0 < |y| ==> !IsSpace(y[|y| - 1]))
    ensures TrimEnd(y + post) == y
    decreases |post|
  {
    if 0 < |post| {
      assert (y + post)[..|y + post| - 1] == y + post[..|post| - 1];
      TrimEndSpaces(y, post[..|post| - 1]);
    } else {
      assert y + post == y;
    }
  }

  /** Whitespace around a name that neither starts nor ends with whitespace
      is exactly what `strip()` removes. */
  lemma StripSurrounded(pre: string, x: string, post: string)
    requires AllSpace(pre) && AllSpace(post)
    requires 0 < |x| && !IsSpace(x[0]) && !IsSpace(x[|x| - 1])
    ensures Strip(pre + x + post) == x
  {
    assert pre + x + post == pre + (x + post);
    TrimStartSpaces(pre, x + post);
    TrimEndSpaces(x, post);
  }

  lemma LowerAppend(a: string, b: string, c: string)
    ensures Lower(a + b + c) == Lower(a) + (Lower(b) + Lower(c))
  {
  }

  lemma LowerStripTwoWords(pre: string, w1: string, run: string, w2: string, post: string)
    requires AllSpace(pre) && AllSpace(post)
    requires 0 < |w1| && 0 < |w2| && NoSeparator(w1) && NoSeparator(w2)
    ensures Lower(Strip(pre + w1 + run + w2 + post)) == Lower(w1) + (Lower(run) + Lower(w2))
  {
    var x := w1 + run + w2;
    assert x[0] == w1[0] && x[|x| - 1] == w2[|w2| - 1];
    assert pre + w1 + run + w2 + post == pre + x + post;
    StripSurrounded(pre, x, post);
    LowerAppend(w1, run, w2);
  }

  lemma CollapseTwoWords(l1: string, lr: string, l2: string)
    requires 0 < |l2| && NoSeparator(l1) && NoSeparator(l2)
    requires 0 < |lr| && forall i | 0 <= i < |lr| :: IsSeparator(lr[i])
    ensures CollapseSeparators(l1 + (lr + l2)) == l1 + "_" + l2
  {
    CollapseCleanPrefix(l1, lr + l2);
    CollapseRunPrefix(lr, l2);
    CollapseFixesExactlyClean(l2);
  }

  /** Two words joined by any run of whitespace and hyphens, with any
      whitespace around them, come out lower-cased and joined by one `_`. */
  lemma NormalizeTwoWords(pre: string, w1: string, run: string, w2: string, post: string)
    requires AllSpace(pre) && AllSpace(post)
    requires 0 < |w1| && 0 < |w2| && NoSeparator(w1) && NoSeparator(w2)
    requires 0 < |run| && forall i | 0 <= i < |run| :: IsSeparator(run[i])
    ensures Normalize(pre + w1 + run + w2 + post) == Lower(w1) + "_" + Lower(w2)
  {
    LowerStripTwoWords(pre, w1, run, w2, post);
    LowerKeepsClass(w1);
    LowerKeepsClass(run);
    LowerKeepsClass(w2);
    CollapseTwoWords(Lower(w1), Lower(run), Lower(w2));
  }

  /** Lower-casing keeps a word free of separators and a run made of them. */
  lemma LowerKeepsClass(s: string)
    ensures |Lower(s)| == |s|
    ensures NoSeparator(s) ==> NoSeparator(Lower(s))
    ensures (forall i | 0 <= i < |s| :: IsSeparator(s[i])) ==>
      forall i | 0 <= i < |Lower(s)| :: IsSeparator(Lower(s)[i])
  {
  }

  // The examples below receive their strings as parameters fixed by a
  // `requires s == "..."`, and spell them out piece by piece in small
  // helper lemmas: a string literal written directly into a contract is
  // unfolded through every recursive definition applied to it, which makes
  // the proof far more expensive than the fact it states.

  lemma OrderDateParts(s: string, pre: string, w1: string, run: string, w2: string)
    requires s == " Order-Date " && pre == " " && w1 == "Order" && run == "-" && w2 == "Date"
    ensures Normalize(s) == Lower(w1) + "_" + Lower(w2)
  {
    assert s == pre + w1 + run + w2 + pre;
    assert AllSpace(pre) && NoSeparator(w1) && NoSeparator(w2);
    assert forall i | 0 <= i < |run| :: IsSeparator(run[i]);
    NormalizeTwoWords(pre, w1, run, w2, pre);
  }

  lemma OrderDateWords(x: string, w1: string, w2: string)
    requires w1 == "Order" && w2 == "Date" && x == Lower(w1) + "_" + Lower(w2)
    ensures x == "order_date"
  {
  }

  /** `" Order-Date "` becomes `order_date`. */
  lemma NormalizeOrderDate(s: string)
    requires s == " Order-Date "
    ensures Normalize(s) == "order_date"
  {
    OrderDateParts(s, " ", "Order", "-", "Date");
    OrderDateWords(Normalize(s), "Order", "Date");
  }

  lemma SpacedHyphenParts(s: string, none: string, w1: string, run: string, w2: string)
    requires s == "a - b" && none == "" && w1 == "a" && run == " - " && w2 == "b"
    ensures Normalize(s) == Lower(w1) + "_" + Lower(w2)
  {
    assert s == none + w1 + run + w2 + none;
    assert NoSeparator(w1) && NoSeparator(w2);
    assert forall i | 0 <= i < |run| :: IsSeparator(run[i]);
    NormalizeTwoWords(none, w1, run, w2, none);
  }

  lemma SpacedHyphenWords(x: string, w1: string, w2: string)
    requires w1 == "a" && w2 == "b" && x == Lower(w1) + "_" + Lower(w2)
    ensures x == "a_b"
  {
  }

  /** `"a - b"` becomes `a_b`: the whole run ` - ` gives one `_`. */
  lemma NormalizeSpacedHyphen(s: string)
    requires s == "a - b"
    ensures Normalize(s) == "a_b"
  {
    SpacedHyphenParts(s, "", "a", " - ", "b");
    SpacedHyphenWords(Normalize(s), "a", "b");
  }

  /** What a left-to-right pass has produced after reading `s[..i]`: `r` is
      the collapsed prefix, and while inside a run its `_` is already written. */
  ghost predicate ScanState(s: string, i: int, r: string, inRun: bool) {
    && 0 <= i <= |s|
    && (inRun <==> 0 < i && IsSeparator(s[i - 1]))
    && (!inRun ==> CollapseSeparators(s) == r + CollapseSeparators(s[i..]))
    && (inRun ==> 0 < |r| && r[|r| - 1] == '_' && CollapseSeparators(s) == r[..|r| - 1] + CollapseSeparators(s[i - 1..]))
  }

  lemma DropLast(r: string)
    requires 0 < |r|
    ensures r[..|r| - 1] + [r[|r| - 1]] == r
  {
  }

  /** Reading one more character keeps the pass in step with the substitution. */
  lemma ScanStep(s: string, i: int, r: string, inRun: bool)
    requires ScanState(s, i, r, inRun) && i < |s|
    ensures !IsSeparator(s[i]) ==> ScanState(s, i + 1, r + [s[i]], false)
    ensures IsSeparator(s[i]) && inRun ==> ScanState(s, i + 1, r, true)
    ensures IsSeparator(s[i]) && !inRun ==> ScanState(s, i + 1, r + "_", true)
  {
    if !IsSeparator(s[i]) {
      ScanCopy(s, i, r, inRun);
    } else if inRun {
      CollapseInsideRun(s[i - 1..]);
      assert s[i - 1..][1..] == s[i..];
    } else {
      assert (r + "_")[..|r + "_"| - 1] == r;
    }
  }

  /** A character that is no separator is copied, and ends any run. */
  lemma ScanCopy(s: string, i: int, r: string, inRun: bool)
    requires ScanState(s, i, r, inRun) && i < |s| && !IsSeparator(s[i])
    ensures ScanState(s, i + 1, r + [s[i]], false)
  {
    var c := s[i];
    if inRun {
      ScanLeaveRun(s, i, r);
    }
    var tail := CollapseSeparators(s[i + 1..]);
    assert CollapseSeparators(s[i..]) == [c] + tail by {
      assert s[i..][1..] == s[i + 1..];
    }
    assert r + ([c] + tail) == (r + [c]) + tail;
  }

  /** A run that ends before position `i` has produced its `_`. */
  lemma ScanLeaveRun(s: string, i: int, r: string)
    requires ScanState(s, i, r, true) && i < |s| && !IsSeparator(s[i])
    ensures CollapseSeparators(s) == r + CollapseSeparators(s[i..])
  {
    var t := s[i - 1..];
    assert t[1..] == s[i..] && t[0] == s[i - 1] && t[1] == s[i];
    CollapseShortRun(t);
    RejoinUnderscore(r, CollapseSeparators(s[i..]));
  }

  /** Putting back the `_` a pass has already written. */
  lemma RejoinUnderscore(r: string, x: string)
    requires 0 < |r| && r[|r| - 1] == '_'
    ensures r[..|r| - 1] + ("_" + x) == r + x
  {
    DropLast(r);
  }

  /** At the end of the input the pass has produced the whole substitution. */
  lemma ScanDone(s: string, r: string, inRun: bool)
    requires ScanState(s, |s|, r, inRun)
    ensures r == CollapseSeparators(s)
  {
    if inRun {
      var last := s[|s| - 1..];
      CollapseShortRun(last);
      assert last[1..] == [];
      assert CollapseSeparators(last) == "_";
      DropLast(r);
    } else {
      assert s[|s|..] == [];
    }
  }

  /** One pass over the name that writes `_` at the first separator of each
      run and skips the rest of the run computes the regular-expression
      substitution. */
  method CollapseSeparatorsScan(s: string) returns (r: string)
    ensures r == CollapseSeparators(s)
  {
    r := "";
    var inRun := false;
    var i := 0;
    while i < |s|
      invariant ScanState(s, i, r, inRun)
    {
      ScanStep(s, i, r, inRun);
      if !IsSeparator(s[i]) {
        r := r + [s[i]];
        inRun := false;
      } else if !inRun {
        r := r + "_";
        inRun := true;
      }
      i := i + 1;
    }
    ScanDone(s, r, inRun);
  }
}

=== FILE: handler.dfy ===
/** The whole invocation of `lambda_handler` (jsonToparquet.py, lines 8-66)
    once the JSON object has been read into a table: the headers are
    rewritten, the named columns converted, and the result is written under
    a fresh output key. */
module Handler {
  import opened Results
  import opened Cells
  import opened Tables
  import opened OutputKeys
  import ColumnNames

  /** The rewritten names the handler converts. */
  const ConvertedNames: set<string> := {"order_date", "ship_date", "returns", "ind1", "ind2"}

  /** The object put back into the bucket. */
  datatype Upload = Upload(key: string, table: Table)

  /** Reference definition of what the handler does to one cell of a column
      with the given (rewritten) name, independent of the step table:
      `None` is the cast that raises. Only the two integer columns can
      raise; a date column holds days or nulls, `returns` holds strings, an
      integer column holds integers or nulls, and any other column keeps
      its cell. */
  function Expected(name: string, c: Cell): (r: Option<Cell>)
    ensures r.None? ==> name == "ind1" || name == "ind2"
    ensures r.Some? && (name == "order_date" || name == "ship_date") ==> r.value.Day? || r.value.Null?
    ensures r.Some? && name == "returns" ==> r.value.Str?
    ensures r.Some? && (name == "ind1" || name == "ind2") ==> r.value.Int? || r.value.Null?
    ensures name !in ConvertedNames ==> r == Some(c)
  {
    if name == "order_date" || name == "ship_date" then Some(ToDateCell(c))
    else if name == "returns" then Some(ToTextCell(c))
    else if name == "ind1" || name == "ind2" then ToNullableIntCell(c)
    else Some(c)
  }

  /** The step table names each column at most once. */
  lemma ConversionsDistinct()
    ensures Distinct(StepNames(Conversions))
  {
  }

  /** The step table agrees with the reference definition on every name:
      what a column's own outcome is under the steps is `Expected` applied
      to each of its cells. */
  lemma OutcomeIsExpected(col: Column)
    ensures ColumnOutcome(Conversions, col).None? <==>
      exists i | 0 <= i < |col.cells| :: Expected(col.name, col.cells[i]).None?
    ensures ColumnOutcome(Conversions, col).Some? ==>
      var out := ColumnOutcome(Conversions, col).value;
      out.name == col.name && |out.cells| == |col.cells|
      && forall i | 0 <= i < |col.cells| :: Some(out.cells[i]) == Expected(col.name, col.cells[i])
  {
    RuleByName(col.name);
    match RuleFor(Conversions, col.name)
    case None =>
      assert forall i | 0 <= i < |col.cells| :: Expected(col.name, col.cells[i]) == Some(col.cells[i]);
    case Some(rule) =>
      assert forall i | 0 <= i < |col.cells| :: ConvertCell(rule, col.cells[i]) == Expected(col.name, col.cells[i]);
      OutcomeByCells(col, rule);
  }

  /** A converted column's outcome, once its rule agrees with `Expected` cell by cell. */
  lemma OutcomeByCells(col: Column, rule: Conversion)
    requires RuleFor(Conversions, col.name) == Some(rule)
    requires forall i | 0 <= i < |col.cells| :: ConvertCell(rule, col.cells[i]) == Expected(col.name, col.cells[i])
    ensures ColumnOutcome(Conversions, col).None? <==>
      exists i | 0 <= i < |col.cells| :: Expected(col.name, col.cells[i]).None?
    ensures ColumnOutcome(Conversions, col).Some? ==>
      var out := ColumnOutcome(Conversions, col).value;
      out.name == col.name && |out.cells| == |col.cells|
      && forall i | 0 <= i < |col.cells| :: Some(out.cells[i]) == Expected(col.name, col.cells[i])
  {
  }

  /** The conversion the step table assigns to each name. */
  lemma RuleByName(name: string)
    ensures RuleFor(Conversions, name) ==
      if name == "order_date" || name == "ship_date" then Some(ToDate)
      else if name == "returns" then Some(ToText)
      else if name == "ind1" || name == "ind2" then Some(ToNullableInt)
      else None
  {
    var rule := RuleFor(Conversions, name);
    if name == "order_date" || name == "ship_date" {
      assert rule == Some(ToDate);
    } else if name == "returns" {
      assert rule == Some(ToText);
    } else if name == "ind1" || name == "ind2" {
      assert rule == Some(ToNullableInt);
    } else {
      assert rule.None? by {
        forall k | 0 <= k < |Conversions| ensures Conversions[k].0 != name {
        }
      }
    }
  }

  /** Only `ind1` and `ind2` are cast to integers. */
  lemma IntegerSteps(name: string)
    requires (name, ToNullableInt) in Conversions
    ensures name == "ind1" || name == "ind2"
  {
  }

  /** The headers rewritten and the named columns converted (lines 20-40).
      Two headers with the same canonical name end the invocation: the
      program raises when it converts such a column or, at the latest, when
      the frame is written; here the collision is reported first. */
  function Curate(t: Table): (r: Result<Table, Error>)
    requires Rectangular(t)
    ensures r.Ok? ==> (r.value.rows == t.rows && Rectangular(r.value)
      && Names(r.value) == Names(NormalizeHeaders(t)) && Distinct(Names(r.value)))
    ensures !Distinct(Names(NormalizeHeaders(t))) ==> r == Err(DuplicateColumns)
    ensures r.Err? && r.error.UnsafeIntegerCast? ==> r.error.column == "ind1" || r.error.column == "ind2"
  {
    var n := NormalizeHeaders(t);
    if !Distinct(Names(n)) then Err(DuplicateColumns)
    else
      var r := ApplyConversions(n, Conversions);
      if r.Err? then IntegerSteps(r.error.column); r else r
  }

  /** The conversion steps on a table with distinct names, column by
      column: the run fails exactly when some cell fails its conversion, and
      otherwise each column keeps its name and holds its converted cells
      (a column no step names keeps its cells). */
  lemma ConvertByColumn(n: Table)
    requires Rectangular(n) && Distinct(Names(n))
    ensures ApplyConversions(n, Conversions).Err? <==>
      exists k, i | 0 <= k < |n.columns| && 0 <= i < |n.columns[k].cells| ::
        Expected(n.columns[k].name, n.columns[k].cells[i]).None?
    ensures ApplyConversions(n, Conversions).Ok? ==>
      var r := ApplyConversions(n, Conversions).value;
      |r.columns| == |n.columns|
      && forall k | 0 <= k < |n.columns| ::
        r.columns[k].name == n.columns[k].name
        && |r.columns[k].cells| == |n.columns[k].cells|
        && forall i | 0 <= i < |n.columns[k].cells| ::
          Some(r.columns[k].cells[i]) == Expected(n.columns[k].name, n.columns[k].cells[i])
  {
    ConversionsDistinct();
    ConversionsPerColumn(n, Conversions);
    forall k | 0 <= k < |n.columns| {
      OutcomeIsExpected(n.columns[k]);
    }
  }

  /** Curation as a whole, column by column, in terms of the original
      headers. */
  lemma CurateByColumn(t: Table)
    requires Rectangular(t) && Distinct(Names(NormalizeHeaders(t)))
    ensures var n := NormalizeHeaders(t);
      Curate(t).Err? <==>
        exists k, i | 0 <= k < |n.columns| && 0 <= i < |n.columns[k].cells| ::
          Expected(n.columns[k].name, n.columns[k].cells[i]).None?
    ensures Curate(t).Ok? ==>
      var r := Curate(t).value;
      |r.columns| == |t.columns|
      && forall k | 0 <= k < |t.columns| ::
        r.columns[k].name == ColumnNames.Normalize(t.columns[k].name)
        && |r.columns[k].cells| == |t.columns[k].cells|
        && forall i | 0 <= i < |t.columns[k].cells| ::
          Some(r.columns[k].cells[i]) == Expected(r.columns[k].name, t.columns[k].cells[i])
  {
    ConvertByColumn(NormalizeHeaders(t));
  }

  /** One invocation, from the table read out of the object under `key`
      and the clock reading `now`: the upload it makes, or the failing cast
      that ends it before anything is written. */
  function Handle(t: Table, key: string, now: Instant): (r: Result<Upload, Error>)
    requires Rectangular(t)
    ensures r.Ok? <==> Curate(t).Ok?
    ensures !Distinct(Names(NormalizeHeaders(t))) ==> r == Err(DuplicateColumns)
    ensures r.Ok? ==> r.value.table == Curate(t).value
    ensures r.Ok? ==> ParseOutputKey(r.value.key) == Some((BaseName(key), now))
  {
    match Curate(t)
    case Err(e) => Err(e)
    case Ok(curated) =>
      OutputKeyRoundTrip(key, now);
      Ok(Upload(OutputKey(key, now), curated))
  }
}

=== FILE: numerals.dfy ===
/** The decimal numerals `pd.to_numeric` reads from strings, and the
    whole-number test that a later `astype('Int64')` applies to them. */
module Numerals {
  import opened Results
  import opened Text

  /** The number `mantissa / 10^scale`, as a numeral writes it. */
  datatype Numeral = Numeral(mantissa: int, scale: nat)

  function Value(n: Numeral): real {
    n.mantissa as real / Pow10(n.scale) as real
  }

  /** A real with no fractional part. */
  predicate IsWhole(x: real) {
    x.Floor as real == x
  }

  /** Position of the first `.` of `s`, if any. */
  function FindDot(s: string): (r: Option<nat>)
    ensures r.Some? ==> r.value < |s| && s[r.value] == '.'
    ensures r.Some? ==> forall i | 0 <= i < r.value :: s[i] != '.'
    ensures r.None? ==> forall i | 0 <= i < |s| :: s[i] != '.'
  {
    if |s| == 0 then None
    else if s[0] == '.' then Some(0)
    else match FindDot(s[1..])
      case None => None
      case Some(k) => Some(k + 1)
  }

  function Signed(negative: bool, v: nat): int {
    if negative then -(v as int) else v
  }

  /** A numeral: an optional sign, then digits with at most one decimal point,
      and at least one digit in all. */
  function ParseNumeral(s: string): (r: Option<Numeral>)
    ensures r.Some? ==> 0 < |s|
  {
    var negative := 0 < |s| && s[0] == '-';
    var body := if 0 < |s| && (s[0] == '-' || s[0] == '+') then s[1..] else s;
    match FindDot(body)
    case None =>
      if 0 < |body| && AllDigits(body) then Some(Numeral(Signed(negative, DigitsValue(body)), 0))
      else None
    case Some(k) =>
      var whole, fraction := body[..k], body[k + 1..];
      if 0 < |whole| + |fraction| && AllDigits(whole) && AllDigits(fraction) then
        AllDigitsAppend(whole, fraction);
        Some(Numeral(Signed(negative, DigitsValue(whole + fraction)), |fraction|))
      else None
  }

  /** A plain string of digits is the whole number it spells. */
  lemma ParseDigits(s: string)
    requires 0 < |s| && AllDigits(s)
    ensures ParseNumeral(s) == Some(Numeral(DigitsValue(s), 0))
    ensures Value(Numeral(DigitsValue(s), 0)) == DigitsValue(s) as real
  {
    assert s[0] != '-' && s[0] != '+';
    assert forall i | 0 <= i < |s| :: s[i] != '.';
    assert FindDot(s) == None;
    assert Signed(false, DigitsValue(s)) == DigitsValue(s);
    assert Pow10(0) == 1;
  }

  /** The string `parts` reads once its optional leading sign is set aside. */
  function Unsigned(s: string): (r: string)
    ensures |r| <= |s| && r == s[|s| - |r|..]
    ensures |s| - |r| == if 0 < |s| && (s[0] == '-' || s[0] == '+') then 1 else 0
  {
    if 0 < |s| && (s[0] == '-' || s[0] == '+') then s[1..] else s
  }

  /** A character that is neither a digit nor a point, and not a leading sign,
      makes the string no numeral. */
  lemma NonNumeralChar(s: string, i: int)
    requires 0 <= i < |s| && !IsDigit(s[i]) && s[i] != '.'
    requires 0 < i || (s[i] != '-' && s[i] != '+')
    ensures ParseNumeral(s) == None
  {
    var body := Unsigned(s);
    var j := i - (|s| - |body|);
    assert 0 <= j < |body| && body[j] == s[i];
    match FindDot(body)
    case None =>
    case Some(k) =>
      if j < k {
        assert body[..k][j] == body[j];
      } else {
        assert body[k + 1..][j - k - 1] == body[j];
      }
  }

  /** A string without a digit is no numeral: a sign or a point alone, or
      both, spell no number. */
  lemma NoDigitNone(s: string)
    requires forall i | 0 <= i < |s| :: !IsDigit(s[i])
    ensures ParseNumeral(s) == None
  {
    var body := Unsigned(s);
    var off := |s| - |body|;
    assert forall j | 0 <= j < |body| :: body[j] == s[j + off];
    match FindDot(body)
    case None =>
      if 0 < |body| {
        assert !IsDigit(body[0]);
      }
    case Some(k) =>
      var whole, fraction := body[..k], body[k + 1..];
      if 0 < |whole| {
        assert whole[0] == body[0];
      } else if 0 < |fraction| {
        assert fraction[0] == body[k + 1];
      }
  }

  /** A second decimal point makes the string no numeral. */
  lemma SecondPoint(s: string, i: int, j: int)
    requires 0 <= i < j < |s| && s[i] == '.' && s[j] == '.'
    ensures ParseNumeral(s) == None
  {
    var body := Unsigned(s);
    var off := |s| - |body|;
    assert 0 < j - off < |body| && body[j - off] == '.';
    match FindDot(body)
    case None =>
      assert false;
    case Some(k) =>
      assert k <= i - off < j - off;
      assert body[k + 1..][j - off - k - 1] == '.';
  }

  /** A sign and digits with no point: the signed whole number they spell. */
  lemma ParseSigned(sign: string, digits: string)
    requires sign == "" || sign == "+" || sign == "-"
    requires 0 < |digits| && AllDigits(digits)
    ensures ParseNumeral(sign + digits) == Some(Numeral(Signed(sign == "-", DigitsValue(digits)), 0))
    ensures Value(Numeral(Signed(sign == "-", DigitsValue(digits)), 0))
      == if sign == "-" then -(DigitsValue(digits) as real) else DigitsValue(digits) as real
  {
    var s := sign + digits;
    assert digits[0] != '-' && digits[0] != '+';
    assert s[|sign|..] == digits;
    assert Unsigned(s) == digits;
    assert FindDot(digits) == None;
    var v := DigitsValue(digits);
    UnscaledValue(Signed(sign == "-", v));
    SignedValue(sign == "-", v);
  }

  lemma UnscaledValue(m: int)
    ensures Value(Numeral(m, 0)) == m as real
  {
    assert Pow10(0) == 1;
  }

  lemma SignedValue(negative: bool, v: nat)
    ensures Signed(negative, v) as real == if negative then -(v as real) else v as real
  {
  }

  /** A sign, digits, a point and digits (either run may be empty, not both):
      the number `whole + fraction / 10^k`, with `k` the count of fraction
      digits, negated under a `-`. */
  lemma ParseDecimal(sign: string, whole: string, fraction: string)
    requires sign == "" || sign == "+" || sign == "-"
    requires AllDigits(whole) && AllDigits(fraction) && 0 < |whole| + |fraction|
    ensures AllDigits(whole + fraction)
    ensures ParseNumeral(sign + whole + "." + fraction)
      == Some(Numeral(Signed(sign == "-", DigitsValue(whole + fraction)), |fraction|))
    ensures var v := DigitsValue(whole) as real + DigitsValue(fraction) as real / Pow10(|fraction|) as real;
      Value(Numeral(Signed(sign == "-", DigitsValue(whole + fraction)), |fraction|))
      == if sign == "-" then -v else v
  {
    var body := whole + "." + fraction;
    Regroup(sign, whole, ".", fraction);
    assert body[0] != '-' && body[0] != '+';
    SignSplit(sign, body);
    ReadDecimal(sign + body, whole, fraction);
    DecimalValue(sign == "-", whole, fraction);
  }

  lemma Regroup(a: string, b: string, c: string, d: string)
    ensures a + b + c + d == a + (b + c + d)
  {
  }

  /** Setting aside a sign written before an unsigned body. */
  lemma SignSplit(sign: string, body: string)
    requires sign == "" || sign == "+" || sign == "-"
    requires 0 < |body| && body[0] != '-' && body[0] != '+'
    ensures Unsigned(sign + body) == body
    ensures (sign + body)[0] == '-' <==> sign == "-"
  {
    assert (sign + body)[|sign|..] == body;
  }

  /** A numeral whose unsigned part is `whole.fraction`. */
  lemma ReadDecimal(s: string, whole: string, fraction: string)
    requires Unsigned(s) == whole + "." + fraction
    requires AllDigits(whole) && AllDigits(fraction) && 0 < |whole| + |fraction|
    ensures AllDigits(whole + fraction)
    ensures ParseNumeral(s) == Some(Numeral(Signed(s[0] == '-', DigitsValue(whole + fraction)), |fraction|))
  {
    AllDigitsAppend(whole, fraction);
    var body := whole + "." + fraction;
    PointAfterDigits(whole, fraction);
    assert body[..|whole|] == whole && body[|whole| + 1..] == fraction;
  }

  /** The first point of `whole + "." + fraction` is the one after `whole`. */
  lemma PointAfterDigits(whole: string, fraction: string)
    requires AllDigits(whole)
    ensures FindDot(whole + "." + fraction) == Some(|whole|)
  {
    var body := whole + "." + fraction;
    assert body[|whole|] == '.';
    assert forall i | 0 <= i < |whole| :: body[i] == whole[i];
  }

  /** The value of a decimal's numeral: whole part plus scaled fraction. */
  lemma DecimalValue(negative: bool, whole: string, fraction: string)
    requires AllDigits(whole) && AllDigits(fraction)
    ensures AllDigits(whole + fraction)
    ensures var v := DigitsValue(whole) as real + DigitsValue(fraction) as real / Pow10(|fraction|) as real;
      Value(Numeral(Signed(negative, DigitsValue(whole + fraction)), |fraction|))
      == if negative then -v else v
  {
    DigitsValueAppend(whole, fraction);
    ShiftedValue(negative, DigitsValue(whole), DigitsValue(fraction), Pow10(|fraction|));
  }

  /** `±(w * p + f) / p` is `±(w + f / p)`. */
  lemma ShiftedValue(negative: bool, w: nat, f: nat, p: nat)
    requires 0 < p
    ensures Signed(negative, w * p + f) as real / p as real
      == if negative then -(w as real + f as real / p as real) else w as real + f as real / p as real
  {
    var m := w * p + f;
    assert m as real == (w * p) as real + f as real;
    assert (w * p) as real == w as real * p as real;
    SignedValue(negative, m);
    ScaledSum(w as real, f as real, p as real);
  }

  lemma ScaledSum(w: real, f: real, p: real)
    requires 0.0 < p
    ensures (w * p + f) / p == w + f / p
    ensures -(w * p + f) / p == -(w + f / p)
  {
  }

  /** Exact integer division and its real quotient agree. */
  lemma QuotientValue(m: int, p: int)
    requires 0 < p
    ensures (m % p == 0) <==> IsWhole(m as real / p as real)
    ensures (m as real / p as real).Floor == m / p
  {
    var q, rem := m / p, m % p;
    var x := m as real / p as real;
    assert m == q * p + rem;
    assert m as real == q as real * p as real + rem as real;
    assert x == q as real + rem as real / p as real;
    assert 0.0 <= rem as real / p as real < 1.0;
    assert x.Floor == q;
    if IsWhole(x) {
      assert rem as real / p as real == 0.0;
    }
  }

  /** The integer a numeral denotes, when it denotes one. */
  function WholeValue(n: Numeral): (r: Option<int>)
    ensures r.Some? <==> IsWhole(Value(n))
    ensures r.Some? ==> r.value as real == Value(n) && r.value == Value(n).Floor
  {
    var p := Pow10(n.scale);
    QuotientValue(n.mantissa, p);
    if n.mantissa % p == 0 then Some(n.mantissa / p) else None
  }

  /** Every integer's decimal text reads back as that integer. */
  lemma ParseIntToString(i: int)
    ensures ParseNumeral(IntToString(i)) == Some(Numeral(i, 0))
  {
  }
}

=== FILE: output_keys.dfy ===
/** The key the Parquet file is written under (jsonToparquet.py, lines
    53-55): `outputfolder/{base}_{YYYYMMDD_HHMMSS}.parquet`. */
module OutputKeys {
  import opened Results
  import opened Text
  import opened Calendar

  const OutputPrefix: string := "outputfolder/"
  const OutputSuffix: string := ".parquet"
  const SourceSuffix: string := ".json"

  /** `path.split('/')[-1]`: the part after the last `/`, or the whole path
      when it has none. */
  function LastSegment(path: string): (r: string)
    ensures |r| <= |path| && r == path[|path| - |r|..]
    ensures '/' !in r
    ensures |r| < |path| ==> path[|path| - |r| - 1] == '/'
  {
    if |path| == 0 || path[|path| - 1] == '/' then ""
    else
      var front := LastSegment(path[..|path| - 1]);
      var r := front + [path[|path| - 1]];
      assert path[..|path| - 1][|path| - 1 - |front|..] == path[|path| - |r|..|path| - 1];
      r
  }

  /** `pat` occurs in `s` at position `i`. */
  predicate OccursAt(s: string, pat: string, i: int) {
    0 <= i && i + |pat| <= |s| && s[i..i + |pat|] == pat
  }

  /** `s.replace(pat, '')`: every occurrence found scanning left to right
      is removed, not only a trailing one. */
  function RemoveAll(s: string, pat: string): (r: string)
    requires 0 < |pat|
    ensures |r| <= |s|
    ensures forall c | c in r :: c in s
    decreases |s|
  {
    if |s| < |pat| then s
    else if s[..|pat|] == pat then
      var r := RemoveAll(s[|pat|..], pat);
      assert forall c | c in r :: c in s by {
        forall c | c in r ensures c in s {
          assert c in s[|pat|..];
        }
      }
      r
    else
      var r := RemoveAll(s[1..], pat);
      assert forall c | c in r :: c in s by {
        forall c | c in r ensures c in s {
          assert c in s[1..];
        }
      }
      [s[0]] + r
  }

  /** A string in which `pat` does not occur is left unchanged. */
  lemma {:induction false} RemoveAllAbsent(s: string, pat: string)
    requires 0 < |pat|
    requires forall i | 0 <= i :: !OccursAt(s, pat, i)
    ensures RemoveAll(s, pat) == s
    decreases |s|
  {
    if |pat| <= |s| {
      assert !OccursAt(s, pat, 0);
      forall i | 0 <= i ensures !OccursAt(s[1..], pat, i) {
        assert !OccursAt(s, pat, i + 1);
      }
      RemoveAllAbsent(s[1..], pat);
    }
  }

  /** When the name has a single `.json`, at its end, exactly that suffix is
      removed. (`.json` starts with the only `.` it contains, so no occurrence
      can straddle the join.) */
  lemma {:induction false} RemoveAllSuffix(stem: string)
    requires forall i | 0 <= i :: !OccursAt(stem, SourceSuffix, i)
    ensures RemoveAll(stem + SourceSuffix, SourceSuffix) == stem
    decreases |stem|
  {
    var s := stem + SourceSuffix;
    if |stem| == 0 {
      assert s == SourceSuffix;
      assert s[|SourceSuffix|..] == [];
    } else {
      assert s[..5] != SourceSuffix by {
        if |stem| >= 5 {
          assert !OccursAt(stem, SourceSuffix, 0);
          assert s[..5] == stem[..5];
        } else {
          assert s[|stem|] == '.';
          assert SourceSuffix[|stem|] != '.';
        }
      }
      forall i | 0 <= i ensures !OccursAt(stem[1..], SourceSuffix, i) {
        assert !OccursAt(stem, SourceSuffix, i + 1);
      }
      RemoveAllSuffix(stem[1..]);
      assert s[1..] == stem[1..] + SourceSuffix;
    }
  }

  /** Every `.json` goes, wherever it stands: removing it from between two
      parts is removing it from each part on its own. */
  lemma RemoveAllSplit(a: string, b: string)
    ensures RemoveAll(a + SourceSuffix + b, SourceSuffix) ==
      RemoveAll(a, SourceSuffix) + RemoveAll(b, SourceSuffix)
  {
    assert SourceSuffix[0] == '.' && forall k | 0 < k < |SourceSuffix| :: SourceSuffix[k] != '.';
    RemoveSplitAt(a, b, SourceSuffix);
  }

  /** A pattern whose only `.` is its first character. */
  predicate DotLed(p: string) {
    0 < |p| && p[0] == '.' && forall k | 0 < k < |p| :: p[k] != '.'
  }

  /** `RemoveAllSplit` for any pattern led by its only `.`: no occurrence can
      start inside `a` and run into the pattern after it. */
  lemma {:induction false} RemoveSplitAt(a: string, b: string, p: string)
    requires DotLed(p)
    ensures RemoveAll(a + p + b, p) == RemoveAll(a, p) + RemoveAll(b, p)
    decreases |a|
  {
    if |a| == 0 {
      var s := a + p + b;
      assert s[..|p|] == p && s[|p|..] == b;
      RemoveDrop(s, p);
    } else if |a| < |p| || a[..|p|] != p {
      RemoveSplitAt(a[1..], b, p);
      SplitKeepStep(a, b, p);
    } else {
      RemoveSplitAt(a[|p|..], b, p);
      SplitDropStep(a, b, p);
    }
  }

  /** The step of `RemoveSplitAt` where `a` does not start with the pattern. */
  lemma SplitKeepStep(a: string, b: string, p: string)
    requires DotLed(p) && 0 < |a| && (|a| < |p| || a[..|p|] != p)
    requires RemoveAll(a[1..] + p + b, p) == RemoveAll(a[1..], p) + RemoveAll(b, p)
    ensures RemoveAll(a + p + b, p) == RemoveAll(a, p) + RemoveAll(b, p)
  {
    KeepJoined(a, b, p);
    KeepAlone(a, p);
    assert [a[0]] + (RemoveAll(a[1..], p) + RemoveAll(b, p)) == [a[0]] + RemoveAll(a[1..], p) + RemoveAll(b, p);
  }

  /** When `a` does not start with the pattern, neither does `a + p + b`. */
  lemma KeepJoined(a: string, b: string, p: string)
    requires DotLed(p) && 0 < |a| && (|a| < |p| || a[..|p|] != p)
    ensures RemoveAll(a + p + b, p) == [a[0]] + RemoveAll(a[1..] + p + b, p)
  {
    var t := p + b;
    var s := a + t;
    assert a + p + b == s && a[1..] + p + b == a[1..] + t;
    SliceAfter(a, t, 1);
    if |a| < |p| {
      assert s[|a|] == '.' && p[|a|] != '.';
    } else {
      SliceAfter(a, t, |p|);
    }
    assert s[..|p|] != p;
    RemoveKeep(s, p);
  }

  /** When `a` does not start with the pattern, its first character is kept. */
  lemma KeepAlone(a: string, p: string)
    requires 0 < |p| && 0 < |a| && (|a| < |p| || a[..|p|] != p)
    ensures RemoveAll(a, p) == [a[0]] + RemoveAll(a[1..], p)
  {
    if |a| < |p| {
      ShortKept(a, p);
      ShortKept(a[1..], p);
      assert [a[0]] + a[1..] == a;
    } else {
      RemoveKeep(a, p);
    }
  }

  /** The step of `RemoveSplitAt` where `a` starts with the pattern. */
  lemma SplitDropStep(a: string, b: string, p: string)
    requires DotLed(p) && |p| <= |a| && a[..|p|] == p
    requires RemoveAll(a[|p|..] + p + b, p) == RemoveAll(a[|p|..], p) + RemoveAll(b, p)
    ensures RemoveAll(a + p + b, p) == RemoveAll(a, p) + RemoveAll(b, p)
  {
    var t := p + b;
    var s := a + t;
    assert a + p + b == s && a[|p|..] + p + b == a[|p|..] + t;
    SliceAfter(a, t, |p|);
    RemoveDrop(s, p);
    RemoveDrop(a, p);
  }

  /** Cutting a concatenation inside its first part. */
  lemma SliceAfter(x: string, y: string, k: int)
    requires 0 <= k <= |x|
    ensures (x + y)[k..] == x[k..] + y && (x + y)[..k] == x[..k]
  {
  }

  /** A name shorter than the pattern holds no occurrence. */
  lemma ShortKept(a: string, p: string)
    requires 0 < |p| && |a| < |p|
    ensures RemoveAll(a, p) == a
  {
  }

  lemma RemoveKeep(s: string, pat: string)
    requires 0 < |pat| <= |s| && s[..|pat|] != pat
    ensures RemoveAll(s, pat) == [s[0]] + RemoveAll(s[1..], pat)
  {
  }

  lemma RemoveDrop(s: string, pat: string)
    requires 0 < |pat| <= |s| && s[..|pat|] == pat
    ensures RemoveAll(s, pat) == RemoveAll(s[|pat|..], pat)
  {
  }

  /** Removing every `.json` is not stripping an extension: an inner
      occurrence goes too. */
  lemma RemoveAllInner(a: string)
    requires a == "a.jsonb.json"
    ensures RemoveAll(a, SourceSuffix) == "ab"
  {
    var p := SourceSuffix;
    assert a[12..] == [];
    RemoveDrop(a[7..], p);
    assert a[7..][5..] == a[12..];
    assert a[6..][..5][0] != p[0];
    RemoveKeep(a[6..], p);
    assert a[6..][1..] == a[7..];
    RemoveDrop(a[1..], p);
    assert a[1..][5..] == a[6..];
    RemoveKeep(a, p);
  }

  /** A removal can join the characters around it into a new `.json`, which
      stays in the result: the base name can still contain `.json`. */
  lemma RemoveAllRejoins(b: string)
    requires b == "a.j.jsonson"
    ensures RemoveAll(b, SourceSuffix) == "a.json"
  {
    var p := SourceSuffix;
    assert RemoveAll(b[8..], p) == "son";
    RemoveDrop(b[3..], p);
    assert b[3..][5..] == b[8..];
    assert b[2..][..5][0] != p[0];
    RemoveKeep(b[2..], p);
    assert b[2..][1..] == b[3..];
    assert b[1..][..5][2] != p[2];
    RemoveKeep(b[1..], p);
    assert b[1..][1..] == b[2..];
    RemoveKeep(b, p);
  }

  /** The wall-clock reading the handler stamps the key with; the clock
      itself is not modelled, so the reading is an input. */
  datatype Clock = Clock(year: int, month: int, day: int, hour: int, minute: int, second: int)

  predicate ValidClock(c: Clock) {
    ValidDate(Date(c.year, c.month, c.day))
    && 0 <= c.hour < 24 && 0 <= c.minute < 60 && 0 <= c.second < 60
  }

  type Instant = c: Clock | ValidClock(c) witness Clock(1970, 1, 1, 0, 0, 0)

  /** `%Y%m%d`: four digits of year, two of month, two of day. */
  function DatePart(y: nat, m: nat, d: nat): (r: string)
    requires y < 10000 && m < 100 && d < 100
    ensures |r| == 8 && AllDigits(r)
  {
    AllDigitsAppend(Digits4(y), Digits2(m));
    AllDigitsAppend(Digits4(y) + Digits2(m), Digits2(d));
    Digits4(y) + Digits2(m) + Digits2(d)
  }

  /** `%H%M%S`: two digits each of hour, minute and second. */
  function TimePart(h: nat, m: nat, s: nat): (r: string)
    requires h < 100 && m < 100 && s < 100
    ensures |r| == 6 && AllDigits(r)
  {
    AllDigitsAppend(Digits2(h), Digits2(m));
    AllDigitsAppend(Digits2(h) + Digits2(m), Digits2(s));
    Digits2(h) + Digits2(m) + Digits2(s)
  }

  /** Reads the three fields of a `%Y%m%d` string back. */
  function ReadDatePart(s: string): (r: (nat, nat, nat))
    requires |s| == 8 && AllDigits(s)
    ensures r.0 < 10000 && r.1 < 100 && r.2 < 100
    ensures DatePart(r.0, r.1, r.2) == s
  {
    assert s == s[..4] + s[4..6] + s[6..];
    (Value4(s[..4]), Value2(s[4..6]), Value2(s[6..]))
  }

  /** Reads the three fields of a `%H%M%S` string back. */
  function ReadTimePart(s: string): (r: (nat, nat, nat))
    requires |s| == 6 && AllDigits(s)
    ensures r.0 < 100 && r.1 < 100 && r.2 < 100
    ensures TimePart(r.0, r.1, r.2) == s
  {
    assert s == s[..2] + s[2..4] + s[4..];
    (Value2(s[..2]), Value2(s[2..4]), Value2(s[4..]))
  }

  lemma DatePartRoundTrip(y: nat, m: nat, d: nat)
    requires y < 10000 && m < 100 && d < 100
    ensures ReadDatePart(DatePart(y, m, d)) == (y, m, d)
  {
    var s := DatePart(y, m, d);
    assert s[..4] == Digits4(y) && s[4..6] == Digits2(m) && s[6..] == Digits2(d);
    FieldRoundTrip(y);
    FieldRoundTrip(m);
    FieldRoundTrip(d);
  }

  lemma TimePartRoundTrip(h: nat, m: nat, s: nat)
    requires h < 100 && m < 100 && s < 100
    ensures ReadTimePart(TimePart(h, m, s)) == (h, m, s)
  {
  }

  /** `strftime('%Y%m%d_%H%M%S')`. */
  function Timestamp(c: Instant): (r: string)
    ensures |r| == 15 && r[8] == '_'
    ensures AllDigits(r[..8]) && AllDigits(r[9..])
    ensures '/' !in r
  {
    var date, time := DatePart(c.year, c.month, c.day), TimePart(c.hour, c.minute, c.second);
    var r := date + "_" + time;
    assert r[..8] == date && r[9..] == time;
    assert forall i | 0 <= i < 15 :: r[i] == '_' || IsDigit(r[i]) by {
      forall i | 0 <= i < 15 ensures r[i] == '_' || IsDigit(r[i]) {
        if i < 8 { assert r[i] == date[i]; } else if i > 8 { assert r[i] == time[i - 9]; }
      }
    }
    r
  }

  /** Reads a timestamp back: exactly the strings `Timestamp` produces. */
  function ParseTimestamp(s: string): (r: Option<Instant>)
    ensures r.Some? ==> Timestamp(r.value) == s
  {
    if |s| != 15 || s[8] != '_' || !AllDigits(s[..8]) || !AllDigits(s[9..]) then None
    else
      var (y, m, d) := ReadDatePart(s[..8]);
      var (h, mi, se) := ReadTimePart(s[9..]);
      var c := Clock(y, m, d, h, mi, se);
      if ValidClock(c) then
        assert s == s[..8] + "_" + s[9..];
        Some(c)
      else None
  }

  /** A timestamp names its instant uniquely. */
  lemma ParseTimestampExactly(s: string, c: Instant)
    ensures ParseTimestamp(s) == Some(c) <==> Timestamp(c) == s
  {
    if Timestamp(c) == s {
      assert s[..8] == DatePart(c.year, c.month, c.day);
      assert s[9..] == TimePart(c.hour, c.minute, c.second);
      DatePartRoundTrip(c.year, c.month, c.day);
      TimePartRoundTrip(c.hour, c.minute, c.second);
    }
  }

  /** The base of the output name: the input key's file name with every
      `.json` removed. */
  function BaseName(key: string): (r: string)
    ensures '/' !in r
  {
    RemoveAll(LastSegment(key), SourceSuffix)
  }

  /** A string is its three consecutive slices. */
  lemma SplitThree(s: string, i: int, j: int)
    requires 0 <= i <= j <= |s|
    ensures s == s[..i] + s[i..j] + s[j..]
  {
  }

  /** What follows the base: `_`, the timestamp and `.parquet`. */
  function KeyTail(c: Instant): (r: string)
    ensures |r| == 24 && r[0] == '_' && '/' !in r
    ensures r[1..16] == Timestamp(c) && r[16..] == OutputSuffix
  {
    "_" + Timestamp(c) + OutputSuffix
  }

  function ParseKeyTail(t: string): (r: Option<Instant>)
    ensures r.Some? ==> KeyTail(r.value) == t
  {
    if |t| != 24 || t[..1] != "_" || t[16..] != OutputSuffix then None
    else match ParseTimestamp(t[1..16])
      case None => None
      case Some(c) =>
        SplitThree(t, 1, 16);
        Some(c)
  }

  /** The key for a given base and instant. */
  function KeyFor(base: string, c: Instant): (r: string)
    ensures |r| == |OutputPrefix| + |base| + |KeyTail(c)|
    ensures r[..13] == OutputPrefix && r[13..|r| - 24] == base && r[|r| - 24..] == KeyTail(c)
  {
    OutputPrefix + base + KeyTail(c)
  }

  /** `f"outputfolder/{base}_{timestamp}.parquet"` for the object that
      arrived under `key`, stamped with the reading `c`. */
  function OutputKey(key: string, c: Instant): (r: string)
    ensures |r| == |BaseName(key)| + 37
    ensures r[..13] == OutputPrefix && r[|r| - 8..] == OutputSuffix
    ensures r[|r| - 24] == '_' && r[|r| - 23..|r| - 8] == Timestamp(c)
    ensures '/' !in r[13..]
  {
    KeyForFields(BaseName(key), c);
    KeyFor(BaseName(key), c)
  }

  /** Where the parts of a key sit, counted from its end, and that nothing
      after the prefix is a `/` when the base has none. */
  lemma KeyForFields(base: string, c: Instant)
    requires '/' !in base
    ensures var r := KeyFor(base, c);
      && |r| == |base| + 37
      && r[|r| - 8..] == OutputSuffix
      && r[|r| - 24] == '_' && r[|r| - 23..|r| - 8] == Timestamp(c)
      && '/' !in r[13..]
  {
  }

  /** Splits an output key back into its base and instant. */
  function ParseOutputKey(s: string): (r: Option<(string, Instant)>)
    ensures r.Some? ==> KeyFor(r.value.0, r.value.1) == s && '/' !in r.value.0
  {
    if |s| < 37 then None
    else
      var prefix, base, tail := s[..13], s[13..|s| - 24], s[|s| - 24..];
      if prefix != OutputPrefix || '/' in base then None
      else match ParseKeyTail(tail)
        case None => None
        case Some(c) =>
          SplitThree(s, 13, |s| - 24);
          Some((base, c))
  }

  /** The key is read back exactly when it is spelt the way the handler
      spells it: keys for different bases or instants never collide. */
  lemma ParseOutputKeyExactly(s: string, base: string, c: Instant)
    ensures ParseOutputKey(s) == Some((base, c)) <==> '/' !in base && KeyFor(base, c) == s
  {
    if '/' !in base && KeyFor(base, c) == s {
      var t := KeyTail(c);
      assert s[|s| - 24..] == t;
      ParseTimestampExactly(t[1..16], c);
    }
  }

  /** The handler's key gives back the base name and the instant. */
  lemma OutputKeyRoundTrip(key: string, c: Instant)
    ensures ParseOutputKey(OutputKey(key, c)) == Some((BaseName(key), c))
  {
    ParseOutputKeyExactly(OutputKey(key, c), BaseName(key), c);
  }

  /** Two objects whose names differ after `.json` removal never share an
      output key; two readings of the clock never do either. */
  lemma OutputKeyInjective(k1: string, c1: Instant, k2: string, c2: Instant)
    requires OutputKey(k1, c1) == OutputKey(k2, c2)
    ensures BaseName(k1) == BaseName(k2) && c1 == c2
  {
    OutputKeyRoundTrip(k1, c1);
    OutputKeyRoundTrip(k2, c2);
  }

  /** The segment after the last `/` is the file name. */
  lemma LastSegmentAfter(path: string, i: int)
    requires 0 <= i < |path| && path[i] == '/' && '/' !in path[i + 1..]
    ensures LastSegment(path) == path[i + 1..]
  {
  }

  /** A key with no `/` is its own file name. */
  lemma LastSegmentWhole(path: string)
    requires '/' !in path
    ensures LastSegment(path) == path
  {
  }

  // The examples below receive their strings as parameters fixed by a
  // `requires s == "..."`, and spell them out piece by piece in small
  // helper lemmas: a string literal written directly into a contract is
  // unfolded through every recursive definition applied to it, which makes
  // the proof far more expensive than the fact it states.

  lemma TimestampExample(c: Instant, t: string)
    requires c == Clock(2024, 3, 1, 10, 0, 0) && t == "20240301_100000"
    ensures Timestamp(c) == t
  {
  }

  lemma KeyTailExample(c: Instant, t: string)
    requires c == Clock(2024, 3, 1, 10, 0, 0) && t == "_20240301_100000.parquet"
    ensures KeyTail(c) == t
  {
    TimestampExample(c, "20240301_100000");
    KeyTailParts(c, "20240301_100000");
    ExampleTailSpelling("20240301_100000", t);
  }

  lemma KeyTailParts(c: Instant, ts: string)
    requires Timestamp(c) == ts
    ensures KeyTail(c) == "_" + ts + OutputSuffix
  {
  }

  lemma ExampleTailSpelling(ts: string, t: string)
    requires ts == "20240301_100000" && t == "_20240301_100000.parquet"
    ensures "_" + ts + OutputSuffix == t
  {
  }

  lemma BaseNameExample(key: string, base: string)
    requires key == "data/orders.json" && base == "orders"
    ensures BaseName(key) == base
  {
    LastSegmentAfter(key, 4);
    assert key[5..] == base + SourceSuffix;
    forall i | 0 <= i ensures !OccursAt(base, SourceSuffix, i) {
      assert i + 5 <= |base| ==> base[i..i + 5][0] == base[i];
    }
    RemoveAllSuffix(base);
  }

  /** The key written for `data/orders.json` at 10:00:00 on 1 March 2024. */
  lemma OutputKeyExample(key: string, c: Instant, out: string)
    requires key == "data/orders.json" && c == Clock(2024, 3, 1, 10, 0, 0)
    requires out == "outputfolder/orders_20240301_100000.parquet"
    ensures OutputKey(key, c) == out
  {
    BaseNameExample(key, "orders");
    KeyTailExample(c, "_20240301_100000.parquet");
    OutputKeyParts(key, c, "orders", "_20240301_100000.parquet");
    ExampleKeySpelling("orders", "_20240301_100000.parquet", out);
  }

  lemma OutputKeyParts(key: string, c: Instant, base: string, tail: string)
    requires BaseName(key) == base && KeyTail(c) == tail
    ensures OutputKey(key, c) == OutputPrefix + base + tail
  {
  }

  lemma ExampleKeySpelling(base: string, tail: string, out: string)
    requires base == "orders" && tail == "_20240301_100000.parquet"
    requires out == "outputfolder/orders_20240301_100000.parquet"
    ensures OutputPrefix + base + tail == out
  {
  }
}

=== FILE: results.dfy ===
/** Optional values and results with an error, used for the per-cell and
    per-column outcomes of the conversion. */
module Results {

  /** A value that may be absent. */
  datatype Option<+T> = None | Some(value: T)

  /** A value, or the error that aborts the invocation. */
  datatype Result<+T, +E> = Ok(value: T) | Err(error: E)
}

=== FILE: tables.dfy ===
/** The table after loading: named columns of equal length, the header
    rewrite of lines 20-25 and the column conversions of lines 28-40 of
    jsonToparquet.py. */
module Tables {
  import opened Results
  import opened Cells
  import ColumnNames

  datatype Column = Column(name: string, cells: seq<Cell>)

  /** `rows` is the length of the index; a table with no column still has it. */
  datatype Table = Table(rows: nat, columns: seq<Column>)

  /** Every column holds one cell per row. */
  predicate Rectangular(t: Table) {
    forall k | 0 <= k < |t.columns| :: |t.columns[k].cells| == t.rows
  }

  function Names(t: Table): (r: seq<string>)
    ensures |r| == |t.columns|
    ensures forall k | 0 <= k < |r| :: r[k] == t.columns[k].name
  {
    seq(|t.columns|, k requires 0 <= k < |t.columns| => t.columns[k].name)
  }

  predicate Distinct<T(==)>(xs: seq<T>) {
    forall i, j | 0 <= i < j < |xs| :: xs[i] != xs[j]
  }

  /** Assigning `df.columns`: every label is replaced by its canonical form,
      in place; no column is added, dropped or moved and no cell changes. */
  function NormalizeHeaders(t: Table): (r: Table)
    ensures r.rows == t.rows && |r.columns| == |t.columns|
    ensures forall k | 0 <= k < |t.columns| ::
      r.columns[k].cells == t.columns[k].cells
      && r.columns[k].name == ColumnNames.Normalize(t.columns[k].name)
    ensures Rectangular(t) ==> Rectangular(r)
  {
    Table(t.rows, seq(|t.columns|, k requires 0 <= k < |t.columns| =>
      Column(ColumnNames.Normalize(t.columns[k].name), t.columns[k].cells)))
  }

  /** Rewriting the headers of a rewritten table changes nothing. */
  lemma NormalizeHeadersIdempotent(t: Table)
    ensures NormalizeHeaders(NormalizeHeaders(t)) == NormalizeHeaders(t)
  {
    var once := NormalizeHeaders(t);
    var twice := NormalizeHeaders(once);
    forall k | 0 <= k < |t.columns| ensures twice.columns[k] == once.columns[k] {
      ColumnNames.NormalizeIdempotent(t.columns[k].name);
    }
  }

  /** The conversions the handler knows, by target type. */
  datatype Conversion = ToDate | ToText | ToNullableInt

  /** The fixed conversion table, in the order the handler applies it. */
  const Conversions: seq<(string, Conversion)> := [
    ("order_date", ToDate),
    ("ship_date", ToDate),
    ("returns", ToText),
    ("ind1", ToNullableInt),
    ("ind2", ToNullableInt)
  ]

  function StepNames(steps: seq<(string, Conversion)>): (r: seq<string>)
    ensures |r| == |steps|
    ensures forall k | 0 <= k < |r| :: r[k] == steps[k].0
  {
    seq(|steps|, k requires 0 <= k < |steps| => steps[k].0)
  }

  /** The conversion a step list assigns to a column name, if any. */
  function RuleFor(steps: seq<(string, Conversion)>, name: string): (r: Option<Conversion>)
    ensures r.None? <==> forall k | 0 <= k < |steps| :: steps[k].0 != name
    ensures r.Some? ==> exists k | 0 <= k < |steps| :: steps[k] == (name, r.value)
  {
    if |steps| == 0 then None
    else if steps[0].0 == name then Some(steps[0].1)
    else
      var r := RuleFor(steps[1..], name);
      assert r.Some? ==> exists k | 0 <= k < |steps[1..]| :: steps[1..][k] == (name, r.value);
      r
  }

  function ConvertCell(rule: Conversion, c: Cell): Option<Cell> {
    match rule
    case ToDate => Some(ToDateCell(c))
    case ToText => Some(ToTextCell(c))
    case ToNullableInt => ToNullableIntCell(c)
  }

  /** A whole column converted cell by cell; it fails when any one cell does. */
  function ConvertCells(rule: Conversion, cells: seq<Cell>): (r: Option<seq<Cell>>)
    ensures r.Some? <==> forall i | 0 <= i < |cells| :: ConvertCell(rule, cells[i]).Some?
    ensures r.Some? ==> (|r.value| == |cells|
      && forall i | 0 <= i < |cells| :: Some(r.value[i]) == ConvertCell(rule, cells[i]))
  {
    if |cells| == 0 then Some([])
    else
      match ConvertCell(rule, cells[0])
      case None => None
      case Some(c) =>
        match ConvertCells(rule, cells[1..])
        case None => None
        case Some(rest) =>
          assert forall i | 1 <= i < |cells| :: cells[1..][i - 1] == cells[i];
          Some([c] + rest)
  }

  /** What ends an invocation before anything is written: `astype('Int64')`
      raising on a column, or two headers that share a canonical name. */
  datatype Error = UnsafeIntegerCast(column: string) | DuplicateColumns

  function IndexOf(names: seq<string>, name: string): (r: Option<nat>)
    ensures r.Some? ==> r.value < |names| && names[r.value] == name
    ensures r.None? ==> forall k | 0 <= k < |names| :: names[k] != name
  {
    if |names| == 0 then None
    else if names[|names| - 1] == name then Some(|names| - 1)
    else IndexOf(names[..|names| - 1], name)
  }

  /** One step `if col in df.columns: df[col] = ...`: a missing column is no
      error and leaves the table as it is. */
  function ApplyConversion(t: Table, name: string, rule: Conversion): (r: Result<Table, Error>)
    requires Rectangular(t)
    ensures r.Ok? ==> r.value.rows == t.rows && Names(r.value) == Names(t) && Rectangular(r.value)
    ensures r.Err? ==> r.error == UnsafeIntegerCast(name) && rule == ToNullableInt
  {
    match IndexOf(Names(t), name)
    case None => Ok(t)
    case Some(k) =>
      match ConvertCells(rule, t.columns[k].cells)
      case None => Err(UnsafeIntegerCast(name))
      case Some(cells) =>
        var r := Table(t.rows, t.columns[k := Column(name, cells)]);
        assert Names(r) == Names(t);
        Ok(r)
  }

  /** The steps applied in order; the first failing step ends the run. */
  function ApplyConversions(t: Table, steps: seq<(string, Conversion)>): (r: Result<Table, Error>)
    requires Rectangular(t)
    ensures r.Ok? ==> r.value.rows == t.rows && Names(r.value) == Names(t) && Rectangular(r.value)
    ensures r.Err? ==> r.error.UnsafeIntegerCast? && (r.error.column, ToNullableInt) in steps
    decreases |steps|
  {
    if |steps| == 0 then Ok(t)
    else
      match ApplyConversion(t, steps[0].0, steps[0].1)
      case Err(e) => Err(e)
      case Ok(t') =>
        var r := ApplyConversions(t', steps[1..]);
        assert r.Err? ==> r.error.UnsafeIntegerCast? && (r.error.column, ToNullableInt) in steps[1..];
        r
  }

  /** What the conversion steps make of one column on its own: it is kept
      when no step names it, converted by the step that names it, or `None`
      when that conversion fails. */
  function ColumnOutcome(steps: seq<(string, Conversion)>, col: Column): Option<Column> {
    match RuleFor(steps, col.name)
    case None => Some(col)
    case Some(rule) =>
      match ConvertCells(rule, col.cells)
      case None => None
      case Some(cells) => Some(Column(col.name, cells))
  }

  /** After the first step succeeds, each column's outcome under the
      remaining steps is its outcome under all of them. */
  lemma FirstStepOutcome(t: Table, steps: seq<(string, Conversion)>, t': Table)
    requires Rectangular(t) && Distinct(Names(t)) && Distinct(StepNames(steps))
    requires 0 < |steps| && ApplyConversion(t, steps[0].0, steps[0].1) == Ok(t')
    ensures |t'.columns| == |t.columns|
    ensures forall k | 0 <= k < |t.columns| ::
      ColumnOutcome(steps, t.columns[k]) == ColumnOutcome(steps[1..], t'.columns[k])
  {
    var (n0, rule0) := steps[0];
    assert Names(t') == Names(t);
    assert RuleFor(steps[1..], n0).None? by {
      forall k | 0 <= k < |steps[1..]| ensures steps[1..][k].0 != n0 {
        assert StepNames(steps)[0] != StepNames(steps)[k + 1];
      }
    }
    forall k | 0 <= k < |t.columns|
      ensures ColumnOutcome(steps, t.columns[k]) == ColumnOutcome(steps[1..], t'.columns[k])
    {
      var col := t.columns[k];
      match IndexOf(Names(t), n0)
      case None =>
        assert t'.columns[k] == col;
        assert col.name != n0 by { assert Names(t)[k] == col.name; }
      case Some(k0) =>
        if k == k0 {
          assert col.name == n0;
        } else {
          assert t'.columns[k] == col;
          assert col.name != n0 by {
            assert Names(t)[k] == col.name && Names(t)[k0] == n0;
            if k < k0 { assert Names(t)[k] != Names(t)[k0]; }
            else { assert Names(t)[k0] != Names(t)[k]; }
          }
        }
    }
  }

  /** The first step fails exactly when the column it names fails on its own. */
  lemma FirstStepFails(t: Table, steps: seq<(string, Conversion)>)
    requires Rectangular(t) && 0 < |steps|
    requires ApplyConversion(t, steps[0].0, steps[0].1).Err?
    ensures exists k | 0 <= k < |t.columns| :: ColumnOutcome(steps, t.columns[k]).None?
  {
  }

  /** The conversion steps act column by column: the run succeeds exactly
      when every column's own outcome does, and then each column is the
      outcome of its own step, or unchanged when no step names it. The order
      of the steps does not matter because no two steps name the same column. */
  lemma {:induction false} ConversionsPerColumn(t: Table, steps: seq<(string, Conversion)>)
    requires Rectangular(t) && Distinct(Names(t)) && Distinct(StepNames(steps))
    ensures ApplyConversions(t, steps).Err? <==>
      exists k | 0 <= k < |t.columns| :: ColumnOutcome(steps, t.columns[k]).None?
    ensures ApplyConversions(t, steps).Ok? ==>
      forall k | 0 <= k < |t.columns| ::
        ColumnOutcome(steps, t.columns[k]) == Some(ApplyConversions(t, steps).value.columns[k])
    decreases |steps|
  {
    if |steps| == 0 {
      forall k | 0 <= k < |t.columns| ensures ColumnOutcome(steps, t.columns[k]) == Some(t.columns[k]) {
      }
    } else {
      match ApplyConversion(t, steps[0].0, steps[0].1)
      case Err(_) =>
        FirstStepFails(t, steps);
      case Ok(t') =>
        assert Names(t') == Names(t);
        assert Distinct(StepNames(steps[1..])) by {
          forall i, j | 0 <= i < j < |steps[1..]| ensures StepNames(steps[1..])[i] != StepNames(steps[1..])[j] {
            assert StepNames(steps)[i + 1] != StepNames(steps)[j + 1];
          }
        }
        FirstStepOutcome(t, steps, t');
        ConversionsPerColumn(t', steps[1..]);
    }
  }
}

=== FILE: text.dfy ===
/** Character classes and decimal digit strings as Python's `str` sees them. */
module Text {

  /** Python's `str.isspace()`: what `str.strip()` removes and what the
      regular-expression class `\s` matches in a `str` pattern, as code-point
      ranges. */
  predicate IsSpace(c: char) {
    var n := c as int;
    (0x09 <= n <= 0x0D) || (0x1C <= n <= 0x20) || n == 0x85 || n == 0xA0
    || n == 0x1680 || (0x2000 <= n <= 0x200A) || n == 0x2028 || n == 0x2029
    || n == 0x202F || n == 0x205F || n == 0x3000
  }

  /** The ranges above hold exactly the characters `str.isspace()` is true
      of, listed one by one: the C0 controls tab to carriage return and the
      four separators after them, space, NEL, no-break space, and the Unicode
      space separators and line and paragraph separators. */
  lemma IsSpaceListed(c: char)
    ensures IsSpace(c) <==> c in {
      '\t', '\n', '\U{000B}', '\U{000C}', '\r',
      '\U{001C}', '\U{001D}', '\U{001E}', '\U{001F}', ' ',
      '\U{0085}', '\U{00A0}', '\U{1680}',
      '\U{2000}', '\U{2001}', '\U{2002}', '\U{2003}', '\U{2004}', '\U{2005}',
      '\U{2006}', '\U{2007}', '\U{2008}', '\U{2009}', '\U{200A}',
      '\U{2028}', '\U{2029}', '\U{202F}', '\U{205F}', '\U{3000}'
    }
  {
  }

  /** A character of the class `[\s\-]`. */
  predicate IsSeparator(c: char) {
    IsSpace(c) || c == '-'
  }

  predicate IsUpper(c: char) {
    'A' <= c <= 'Z'
  }

  /** Lower-casing of one character (ASCII letters only). */
  function ToLower(c: char): (r: char)
    ensures !IsUpper(r)
    ensures IsSeparator(r) == IsSeparator(c)
    ensures !IsUpper(c) ==> r == c
    ensures IsUpper(c) ==> 'a' <= r <= 'z' && r as int - 'a' as int == c as int - 'A' as int
  {
    if IsUpper(c) then (c as int + 32) as char else c
  }

  predicate IsDigit(c: char) {
    '0' <= c <= '9'
  }

  predicate AllDigits(s: string) {
    forall i | 0 <= i < |s| :: IsDigit(s[i])
  }

  function DigitChar(d: nat): (c: char)
    requires d < 10
    ensures IsDigit(c) && c as int - '0' as int == d
  {
    "0123456789"[d]
  }

  function Pow10(k: nat): (r: nat)
    ensures 1 <= r
  {
    if k == 0 then 1 else 10 * Pow10(k - 1)
  }

  /** The number a string of decimal digits denotes, most significant first. */
  function DigitsValue(s: string): (r: nat)
    requires AllDigits(s)
    ensures r < Pow10(|s|)
  {
    if |s| == 0 then 0
    else
      var v := DigitsValue(s[..|s| - 1]);
      var d := s[|s| - 1] as int - '0' as int;
      assert v + 1 <= Pow10(|s| - 1);
      assert 10 * v + d < 10 * (v + 1);
      10 * v + d
  }

  function DigitValue(c: char): (d: nat)
    requires IsDigit(c)
    ensures d < 10 && DigitChar(d) == c
  {
    c as int - '0' as int
  }

  /** `n` as exactly two digits, zero-padded (the `%m`, `%d`, `%H`, `%M`, `%S`
      fields of `strftime`). */
  function Digits2(n: nat): (r: string)
    requires n < 100
    ensures |r| == 2 && AllDigits(r)
  {
    [DigitChar(n / 10), DigitChar(n % 10)]
  }

  /** `n` as exactly four digits, zero-padded (the `%Y` field). */
  function Digits4(n: nat): (r: string)
    requires n < 10000
    ensures |r| == 4 && AllDigits(r)
  {
    Digits2(n / 100) + Digits2(n % 100)
  }

  /** The number a two-digit field denotes. */
  function Value2(s: string): (n: nat)
    requires |s| == 2 && AllDigits(s)
    ensures n < 100 && Digits2(n) == s
  {
    var hi, lo := DigitValue(s[0]), DigitValue(s[1]);
    assert (10 * hi + lo) / 10 == hi && (10 * hi + lo) % 10 == lo;
    assert s == [DigitChar(hi), DigitChar(lo)];
    10 * hi + lo
  }

  /** The number a four-digit field denotes. */
  function Value4(s: string): (n: nat)
    requires |s| == 4 && AllDigits(s)
    ensures n < 10000 && Digits4(n) == s
  {
    var hi, lo := Value2(s[..2]), Value2(s[2..]);
    assert s == s[..2] + s[2..];
    assert (100 * hi + lo) / 100 == hi && (100 * hi + lo) % 100 == lo;
    100 * hi + lo
  }

  /** Reading a padded field gives back the number that was written. */
  lemma FieldRoundTrip(n: nat)
    ensures n < 100 ==> Value2(Digits2(n)) == n
    ensures n < 10000 ==> Value4(Digits4(n)) == n
  {
  }

  lemma AllDigitsAppend(a: string, b: string)
    requires AllDigits(a) && AllDigits(b)
    ensures AllDigits(a + b)
  {
  }

  /** Appending one digit multiplies by ten and adds it. */
  lemma DigitsValueSnoc(s: string, c: char)
    requires AllDigits(s) && IsDigit(c)
    ensures AllDigits(s + [c])
    ensures DigitsValue(s + [c]) == 10 * DigitsValue(s) + (c as int - '0' as int)
  {
  }

  /** Digits of a concatenation: the front is shifted by the length of the back. */
  lemma {:induction false} DigitsValueAppend(a: string, b: string)
    requires AllDigits(a) && AllDigits(b)
    ensures AllDigits(a + b)
    ensures DigitsValue(a + b) == DigitsValue(a) * Pow10(|b|) + DigitsValue(b)
  {
    AllDigitsAppend(a, b);
    if |b| == 0 {
      assert a + b == a;
    } else {
      var b', c := b[..|b| - 1], b[|b| - 1];
      assert b == b' + [c];
      assert a + b == (a + b') + [c];
      DigitsValueAppend(a, b');
      DigitsValueSnoc(a + b', c);
      DigitsValueSnoc(b', c);
      ShiftStep(DigitsValue(a), Pow10(|b'|), DigitsValue(b'), c as int - '0' as int);
    }
  }

  lemma ShiftStep(va: int, p: int, vb: int, d: int)
    ensures 10 * (va * p + vb) + d == va * (10 * p) + (10 * vb + d)
  {
  }

  /** Python's `str()` of a non-negative integer: shortest decimal form. */
  function NatToString(n: nat): (r: string)
    ensures 1 <= |r| && AllDigits(r)
    ensures DigitsValue(r) == n
    ensures 1 < |r| ==> r[0] != '0'
  {
    if n < 10 then [DigitChar(n)]
    else
      var front := NatToString(n / 10);
      var r := front + [DigitChar(n % 10)];
      assert r[..|r| - 1] == front;
      r
  }

  /** Python's `str()` of an integer: a `-` exactly when it is negative,
      then the shortest decimal digits of its magnitude. */
  function IntToString(i: int): (r: string)
    ensures 1 <= |r| && (r[0] == '-' <==> i < 0)
    ensures var digits := if i < 0 then r[1..] else r;
      1 <= |digits| && AllDigits(digits) && (1 < |digits| ==> digits[0] != '0')
      && DigitsValue(digits) == if i < 0 then -i else i
  {
    if i < 0 then
      var r := "-" + NatToString(-i);
      assert r[1..] == NatToString(-i);
      r
    else NatToString(i)
  }
}
